=== FILE: README.md ===
# FsQuota in Dafny

A model of the C core of the `FsQuota` Python extension (`src/FsQuota.c`).
The extension answers quota questions about a file system path. It covers:

- finding the mount table entry of the path;
- picking the quota access method (regular quotactl, XFS, VxFS, AFS, JFS2,
  or NFS through the `rquota` RPC program);
- asking a remote `rpc.rquotad` and normalising its answer;
- the `query`, `setqlim` and `sync` methods of a `quota` object;
- the mount table iterator `MntTab`.

The model is functional: every object is an immutable datatype and every
method is a function from the old state and its inputs to the new state and
an outcome. The compile-time configuration (`myconfig.h` switches such as
`SGI_XFS`, `USE_IOCTL`, `Q_CTL_V2`, `NETBSD_LIBQUOTA`, `USE_EXT_RQUOTA`,
`LINUX_RQUOTAD_BUG`, `NO_RPC`) is a `Platform` record. Every system call
is an input rather than a call:

- stat(2) is a map from path to st_dev;
- the mount table is a sequence of entries, or the errno of opening it;
- each RPC attempt is a `CallEnv`: does the host resolve, is a client
  created, and what are the call status and the reply;
- the local quota calls are one function from the request to a record or
  an errno;
- NetBSD's libquota is a key/value store with refused keys;
- the clock (`gettimeofday`) is a `now` parameter.

Modules, one per file:

| file | module | models |
|---|---|---|
| wrappers.dfy | Wrappers | Option, Result, Outcome |
| cstring.dfy | CString | strchr, strstr, `%d` formatting |
| quota_types.dfy | QuotaTypes | device types, configuration, id types, C int conversion |
| errors.dfy | Errors | errno values, `FsQuota_QuotaCtlException`, `FsQuota_OsException` |
| mnttab.dfy | MntTab | `my_setmntent`/`my_getmntent` (mntent and BSD statfs array), the `MntTab` iterator |
| resolve.dfy | Resolve | `Quota_setqcarg` |
| rpc_options.dfy | RpcOptions | `rpc_opt`, `callaurpc` |
| nfs.dfy | Nfs | `getnfsquota` |
| quota_object.dfy | QuotaObject | `Quota_new`, `Quota_init`, `dev`, `is_nfs`, `Quota_Repr` |
| netbsd.dfy | NetBsdQuota | the NetBSD libquota branches of `query` and `setqlim` |
| dispatch.dfy | Dispatch | `query`, `setqlim`, `sync` |

Behaviour kept as written, and code given its evident meaning:

- Outside XFS, a project quota (`kind == 2`) is a group quota: every
  non-XFS call turns any non-zero kind into a group quota. This includes the
  extended rquota call and the NetBSD keys (src/FsQuota.c:203, 585, 816).
  `Dispatch.ProjectQueryIsGroupQuery` states it.
- `setqlim` and `sync` have no NFS branch. A remote object goes to the
  local quota call, with the remote path as the device argument.
- `query` treats a failed `afs_check` with `FsQuota_OsException` ("AFS
  setup failed"). `setqlim` and `sync` raise a quotactl error there
  ("AFS setup via afc_check failed").
- The `USE_IOCTL` branch of `setqlim` does not compile as written: it
  contains `if = (...)` (src/FsQuota.c:892). The model gives it the evident
  meaning: an ioctl failure raises the quotactl error.
- A `NO_RPC` build does not compile as written either. `T_QUOTA_RPC_OPT`
  is defined only without `NO_RPC` (src/FsQuota.c:62-76) but is used by
  the object (391) and by `Quota_Repr` (1187-1192). In `rpc_opt`, RETVAL is
  declared inside `#ifndef NO_RPC` (1049) and returned outside it (1081).
  The model gives such a build the evident meaning: zero-filled options,
  an `rpc_opt` that changes nothing and succeeds, and a remote `query`
  that raises ENOSYS.
- An AIX build without `HAVE_JFS2` does not compile as written. Once the
  JFS2 block (src/FsQuota.c:631-656) is left out, the `else if (stat(...))`
  at 657 follows a declaration and has no `if`. The model gives it the
  evident meaning: stat the argument, then the quotactl call.
- The AIX, JFS2 and OSF/1 builds set the quotactl argument from
  `target_path` (src/FsQuota.c:1789), which is declared nowhere. The model
  reads it as the path the object was created for (`QcargMode.TargetPath`).
- On the NetBSD path of `setqlim`, the default id is tried only as a
  fallback (src/FsQuota.c:830, 857). When both lookups fail, the key keeps
  the default id, so the new limits are written to the file system's
  default entry. The model keeps this behaviour;
  `NetBsdQuota.FallToZeroWritesDefaultId` states it.
- The NFS timers `rq_btimeleft` and `rq_ftimeleft` are `u_int`. Their sum
  with ten years (src/FsQuota.c:280, 287) wraps modulo 2^32 before the
  comparison with the clock. From 2^32 minus ten years on, every timer
  counts from now, even an absolute one. The model keeps this;
  `Nfs.WrappedTimerCountsFromNow` states it.

## Model

| member | source | states |
|---|---|---|
| CString.IndexFrom | src/FsQuota.c:1739-1756 | the first position at or after a start where a character occurs, or none when it does not occur (strchr) |
| CString.FindFrom | src/FsQuota.c:1798 | the first position where a pattern occurs, or none (strstr) |
| CString.Digits | src/FsQuota.c:1414-1417 | a natural number prints as a non-empty string of decimal digits |
| CString.DecimalStringRoundTrip | src/FsQuota.c:1414-1417 | the `%d` rendering of any integer reads back to that integer; the statfs flag word is first read as a C int (MntTab.BsdFlagsReadBack) |
| CString.Utf8Length | src/FsQuota.c:1069 | `strlen` of the UTF-8 text Python hands to C: at least one and at most four bytes per character, one per character for ASCII |
| CString.TwoByteTextDoubles | src/FsQuota.c:1069 | a text of two-byte characters has twice as many bytes as characters |
| QuotaTypes.KindIdType | src/FsQuota.c:585 | calls that know only users and groups read kind 0 as user and every other kind, project included, as group |
| QuotaTypes.XfsIdType | src/FsQuota.c:476 | the Linux XFS calls map kind 2 to project, 1 to group, and anything else to user |
| QuotaTypes.Int32Of | src/FsQuota.c:1701-1707 | an unsigned value kept in a C int has the same low 32 bits, is unchanged below 2^31, and is negative from 2^31 to 2^32 |
| Errors.QuotaCtlText | src/FsQuota.c:400-431 | the message of a failed quota call: the fixed table by errno, with XFS's ENOENT read as "No quota for this user", and strerror for any other errno |
| Errors.QuotaCtlException | src/FsQuota.c:400-431 | the exception keeps the errno; a message given by the caller wins; without one the message is the table's by errno (XFS's ENOENT as a missing quota), and strerror for errnos outside the table |
| MntTab.GetMntEnt | src/FsQuota.c:1348-1371 | an open handle yields its next entry and advances; at the end, or when closed, nothing is read and the handle is unchanged |
| MntTab.SetMntEnt | src/FsQuota.c:1274-1289 | a handle is open exactly when the table could be opened, and then holds its entries in stored order |
| MntTab.New | src/FsQuota.c:1538-1551 | a new iterator is open at index 0, or the errno of the failed open is raised as "setmntent" |
| MntTab.Init | src/FsQuota.c:1570-1590 | re-initialisation is a no-op at index 0; otherwise it reopens at index 0, or raises and leaves the table closed |
| MntTab.Next | src/FsQuota.c:1622-1651 | an entry exactly when the iterator has not ended and entries remain; the index then grows by one, and otherwise becomes -1 |
| MntTab.DrainReadsInOrder | src/FsQuota.c:1622-1651 | n reads of an open table return its first n entries in order and leave the rest |
| MntTab.FreshIteratorListsTable | src/FsQuota.c:1538-1651 | a new iterator lists the whole table once, in order, then stops, and its repr reports EOL |
| MntTab.EndedStaysEnded | src/FsQuota.c:1628-1648 | once StopIteration was raised, every later read stops again |
| MntTab.RestartReadsFromStart | src/FsQuota.c:1578-1587 | re-initialising a moved iterator gives the state of a new one |
| MntTab.BsdSetMntEnt | src/FsQuota.c:1292-1299 | the statfs array opens exactly when it is non-empty, with the cursor at its start |
| MntTab.BsdGetMntEnt | src/FsQuota.c:1389-1422 | the cursor yields the record at its position, with the flag word printed as a C int in the options, and advances, never past the array |
| MntTab.BsdFlagsReadBack | src/FsQuota.c:1412-1416 | the options read back to the flag word's low 32 bits as a C int: the word itself below 2^31 |
| MntTab.HighFlagBitPrintsNegative | src/FsQuota.c:1412-1416 | a flag word of 2^31 is shown as -2147483648 |
| MntTab.BsdDrainFrom | src/FsQuota.c:1389-1422 | from any valid position the cursor yields the rest of the array in order, then stops |
| MntTab.BsdCursorListsArray | src/FsQuota.c:1292-1422 | the BSD cursor presents the whole array as a mount table, once and in order |
| Resolve.FirstEligibleFrom | src/FsQuota.c:1716-1735 | the scan's choice is an eligible entry and no earlier entry is eligible; none when no entry is |
| Resolve.SetQcarg | src/FsQuota.c:1697-1829 | ENOENT when the path does not stat; the setmntent errno when the table does not open; success exactly when an eligible entry exists, and then the first one's classification; otherwise EINVAL "Mount path not found or device unsupported" |
| Resolve.AsWrittenAgreesOnSmallDevices | src/FsQuota.c:1701-1734 | below 2^31 the device test through a C int agrees with the intended one |
| Resolve.AsWrittenMissesLargeDevice | src/FsQuota.c:1701-1734 | a mount point with st_dev 2^31 fails the as-written test against itself |
| Resolve.LocalDevType | src/FsQuota.c:1763-1782 | XFS, VxFS, AFS or JFS2 exactly for their mount types (AFS also needs the source "AFS") when the build supports them; Regular otherwise |
| Resolve.LoopOptionSpan | src/FsQuota.c:1798-1808 | the loop option is found only at the first occurrence of `loop=/dev/`, only if that starts an option, and ends at the next comma |
| Resolve.Classify | src/FsQuota.c:1737-1814 | an entry is NFS exactly when it has a remote host, exactly for the two NFS spellings; never Invalid |
| Resolve.PseudoEntriesNeverSelected | src/FsQuota.c:1725-1732 | an entry of type lofs, ignore, proc, rootfs or auto* is never selected, whatever the target device |
| Resolve.PseudoPrefixIsTransparent | src/FsQuota.c:1725-1735 | pseudo entries in front of the table do not change which entry is selected |
| Resolve.NfsSpellingsAgree | src/FsQuota.c:1739-1759 | `host:/path` and `/path@host` on an nfs* mount both give the host and the exported path |
| Resolve.DeviceModeUsesLoopOption | src/FsQuota.c:1795-1813 | in device mode the argument is the `loop=/dev/...` option (prefix kept, no comma) when there is one, and the device otherwise |
| Resolve.OnlyFirstLoopOccurrenceCounts | src/FsQuota.c:1798-1799 | `loop=/dev/` inside another option hides a later genuine loop option |
| RpcOptions.DefaultRpcOpt | src/FsQuota.c:1093-1097 | a new object uses UDP, the portmapper's port, 4000 ms and no explicit credentials |
| RpcOptions.ApplyArgs | src/FsQuota.c:1050-1058 | each given keyword replaces its option, port and timeout reduced to 32 bits; absent ones leave it alone |
| RpcOptions.SetRpcOpt | src/FsQuota.c:1042-1082 | each given option is stored; a lone credential id is completed from getuid or getgid; a non-empty hostname of MAX_MACHINE_NAME bytes or more (in UTF-8) is refused with ENAMETOOLONG and a shorter one is stored; without a hostname but with a credential uid, gethostname's name is stored or its errno raised; without RPC nothing changes |
| RpcOptions.AccentedHostnameTooLong | src/FsQuota.c:1067-1072 | forty accented letters (80 bytes) are refused for a 64-byte buffer |
| RpcOptions.CredentialPairComplete | src/FsQuota.c:1061-1065 | after `rpc_opt` both credential ids are set or neither is, while the process ids fit an int |
| RpcOptions.HalfCredentialCompleted | src/FsQuota.c:1061-1065 | a uid given alone is paired with the process's gid |
| RpcOptions.LargeProcessUidSplitsPair | src/FsQuota.c:1061-1062 | a process uid of 2^32-2 stored in the int field leaves the pair split |
| RpcOptions.TimeValOfMillis | src/FsQuota.c:117-118 | the timeval has fewer than a million microseconds and the same duration as the milliseconds |
| RpcOptions.TimeValRoundTrip | src/FsQuota.c:164-165 | the split loses no millisecond |
| RpcOptions.CredentialsFor | src/FsQuota.c:150-159 | explicit Unix credentials exactly when both ids are non-negative, carrying the configured hostname and ids |
| RpcOptions.SetupFor | src/FsQuota.c:117-165 | UDP exactly when TCP is not asked for; the port's low 16 bits; the same timeout for retries and the call |
| RpcOptions.CallAuRpc | src/FsQuota.c:94-186 | a reply exactly when the host resolves, the client is created and the call succeeds; otherwise the text of the first failing step |
| Nfs.NegativeBlockSizeDividesByZero | src/FsQuota.c:261-269 | as written, a block size of -2048 gives a factor of 0 for the divisions |
| Nfs.ScaleBlocks | src/FsQuota.c:246-270 | block counts are multiplied by the ratio for larger blocks, divided by it (rounding down) for smaller positive ones, and kept otherwise |
| Nfs.ScaleBlocksRoundTrip | src/FsQuota.c:250-259 | for blocks at least DEV_QBSIZE the scaled count converts back to the server's count |
| Nfs.ScaleLargeKeepsBytes | src/FsQuota.c:250-259 | for a multiple of DEV_QBSIZE the scaled count holds exactly the server's bytes |
| Nfs.ScaleSmallKeepsBytes | src/FsQuota.c:261-269 | for a divisor of DEV_QBSIZE the scaled count is the server's bytes in DEV_QBSIZE units, rounded down |
| Nfs.SmallRatiosRoundTrip | src/FsQuota.c:252-259 | block sizes of 1, 2, 4 and 8 times DEV_QBSIZE lose nothing |
| Nfs.GraceTime | src/FsQuota.c:276-290 | 0 exactly for no timer; the result moves off the timer exactly when the timer is non-zero and its u_int sum (the field is read by `xdr_u_long`, line 344) with ten years, wrapped modulo 2^32, lies before now, and then it is now plus the timer |
| Nfs.RelativeDelayRecovered | src/FsQuota.c:276-290 | a delay the server reports is counted from now when the sum does not wrap |
| Nfs.AbsoluteExpiryKept | src/FsQuota.c:276-290 | an absolute expiry no more than ten years before now and below the wrap is kept |
| Nfs.WrappedTimerCountsFromNow | src/FsQuota.c:280-288 | from 2^32 minus ten years on, the wrapped sum makes every timer a delay from a present-day clock |
| Nfs.TimerNearWrapExample | src/FsQuota.c:280-281 | the timer 4000000000 against the clock 1760000000 gives 5760000000 |
| Nfs.GraceTimeExamples | src/FsQuota.c:276-290 | one hour from a present-day clock is relative; no timer stays 0; an expiry after now and below the wrap is kept |
| Nfs.Normalise | src/FsQuota.c:229-292 | file fields are copied unscaled; block fields are scaled unless the build trusts Linux rquotad; both timers go through GraceTime |
| Nfs.Interpret | src/FsQuota.c:227-307 | success exactly for Q_OK; Q_NOQUOTA is ESRCH, Q_EPERM is EPERM, any other status EINVAL |
| Nfs.ExtIdType | src/FsQuota.c:203 | the extended call asks for the user quota exactly for kind 0 |
| Nfs.GetNfsQuota | src/FsQuota.c:188-308 | the extended call comes first when built in; the legacy call follows only if that one failed in transport; the result is the last call's: its RPC failure text, or its reply through the status switch (a value exactly for Q_OK) |
| Nfs.BothCallsFailed | src/FsQuota.c:205-225 | when both calls fail, the result is the legacy call's RPC failure |
| Nfs.LegacyFallbackDropsKind | src/FsQuota.c:214-225 | after the fallback, a group query asks the legacy call by uid alone and gets the user's answer |
| QuotaObject.New | src/FsQuota.c:1087-1101 | a new object is unresolved, well formed, and carries the RPC defaults |
| QuotaObject.Init | src/FsQuota.c:1122-1168 | with a host, NFS with path "n/a" and the given path as argument; without one, the resolution of the path or Invalid with its error; the RPC options survive |
| QuotaObject.InitForgetsPreviousState | src/FsQuota.c:1128-1145 | re-initialisation depends on nothing of the earlier state but the RPC options |
| QuotaObject.RpcOptOf | src/FsQuota.c:1042-1082 | `rpc_opt` changes only the options of the object |
| QuotaObject.Dev | src/FsQuota.c:1212-1226 | for a resolved object, `dev` is "host:path" for NFS and the quotactl argument otherwise, as the code returns it; an unresolved object keeps its AttributeError |
| QuotaObject.DevAsWritten | src/FsQuota.c:1212-1226 | as written, `dev` of an unresolved object is NULL with no exception set, and a value otherwise |
| QuotaObject.UnresolvedDevAsWrittenRaisesNothing | src/FsQuota.c:1216-1226 | as written, a new object's `dev` raises nothing and returns nothing |
| QuotaObject.IsNfs | src/FsQuota.c:1228-1231 | `is_nfs` is true exactly when the object has a remote host |
| QuotaObject.RemoteDevRoundTrip | src/FsQuota.c:1151-1157 | an object built from host and path shows `host:path` and is NFS |
| QuotaObject.DevOfHostColonMount | src/FsQuota.c:1739-1746 | a path on a `host:/export` mount shows the mount source itself as `dev` |
| QuotaObject.DevOfPathAtHostMount | src/FsQuota.c:1747-1759 | a path on a `/export@host` mount shows `host:/export` as `dev` |
| QuotaObject.ReprAsWrittenSwapsPort | src/FsQuota.c:1182-1193 | as written, port 2049 over UDP is shown as `use_tcp:2049, port:0` |
| QuotaObject.Repr | src/FsQuota.c:1174-1210 | the bare form exactly for unresolved objects; each NFS option under its own name; the argument and type name for local ones |
| QuotaObject.ReprShowsDev | src/FsQuota.c:1180-1209 | the qcarg part of the repr is the `dev` attribute |
| QuotaObject.Render | src/FsQuota.c:1176-1209 | the text starts with `<FsQuota.quota(path)` and ends with `>` |
| QuotaObject.OperationsKeepWellformed | src/FsQuota.c:1122-1168 | new, init and rpc_opt keep the object well formed |
| NetBsdQuota.GraceStep | src/FsQuota.c:821-838 | the grace period is seven days on a reset, else the id's, else the default's, else 0; the key moves to the default id only when both lookups fail |
| NetBsdQuota.Writes | src/FsQuota.c:813-871 | block then file limits under the same id type, with no usage and no expiry |
| NetBsdQuota.SetLimits | src/FsQuota.c:808-880 | an open failure raises; success exactly when neither put is refused; only the two written keys change |
| NetBsdQuota.ResetWritesSevenDays | src/FsQuota.c:821-825 | a reset writes both limits under the caller's id with seven days of grace |
| NetBsdQuota.ExistingGraceKept | src/FsQuota.c:826-829 | without a reset an id with entries keeps its grace periods |
| NetBsdQuota.FallToZeroWritesDefaultId | src/FsQuota.c:830-844 | when neither the id nor the default has an entry, the block limits land on the default id and the id's own entries stay unchanged |
| NetBsdQuota.QueryAsWritten | src/FsQuota.c:577-604 | as written, a failed open or get returns NULL without an exception; otherwise the same as the corrected query |
| NetBsdQuota.QueryAsWrittenRaisesNothing | src/FsQuota.c:577-604 | a store that cannot be opened makes the as-written query raise nothing |
| NetBsdQuota.Query | src/FsQuota.c:577-604 | a value exactly when the store opens and has both entries, read field by field; otherwise the errno is raised |
| NetBsdQuota.ResetThenQuery | src/FsQuota.c:813-871 | limits set with a reset read back with no usage and no expiry |
| Dispatch.Jfs2AsWrittenSwapsFiles | src/FsQuota.c:642-650 | as written, 10 files in use under a hard limit of 100 are reported as 100 in use |
| Dispatch.LocalQueryCall | src/FsQuota.c:468-664 | the local call reads the record for the caller's id, except the AFS call, which takes no id; only Linux XFS asks for a project id; standard calls use the build's interface |
| Dispatch.NfsQuery | src/FsQuota.c:551-573 | a value exactly when getnfsquota succeeds, ECOMM with the RPC text for transport failures, and the status errno through the message table; ENOSYS in a build without RPC, by that build's evident meaning |
| Dispatch.LocalQuery | src/FsQuota.c:547-684 | the local part of `query`: the NetBSD sub-branch's result on NetBSD; elsewhere never NULL without an exception, and a value only from a successful call, as the AFS tuple for AFS |
| Dispatch.QueryAsWritten | src/FsQuota.c:452-690 | `query` as written: EINVAL when uninitialised, the NFS branch for remote objects, NULL without an exception only on the NetBSD path, and the JFS2 record in the swapped order |
| Dispatch.QueryAsWrittenLosesNetBsdError | src/FsQuota.c:577-604 | as written, on NetBSD a quota that cannot be opened gives NULL without an exception |
| Dispatch.Query | src/FsQuota.c:452-690 | an exception is always set on failure; EINVAL for an uninitialised object; per branch (XFS, VxFS, AFS, NFS, NetBSD, ioctl, Linux, V2 with AIX and JFS2, V1), the call made and its record, or the errno of the call, the device open or the stat; the JFS2 record in its own field order; equal to the as-written query wherever that one is correct |
| Dispatch.ProjectQueryIsGroupQuery | src/FsQuota.c:452-690 | a project query gives the same result as a group query except on Linux XFS |
| Dispatch.XfsKindsAreDistinct | src/FsQuota.c:476 | on Linux XFS the three kinds address user, group and project ids |
| Dispatch.NoQuotaIsEsrch | src/FsQuota.c:295-297 | a server's Q_NOQUOTA surfaces as (ESRCH, "No quota for this user") |
| Dispatch.TimelimFlag | src/FsQuota.c:719-720 | the stored flag is 0 or 1, and 1 exactly for a non-zero argument |
| Dispatch.SetQlimWritesFlagAsTimers | src/FsQuota.c:882-908 | after the flag is normalised at line 719, on the quotactl interfaces the record written carries the new limits, no usage, and both timers 1 for a non-zero flag and 0 for a zero one |
| Dispatch.U64 | src/FsQuota.c:703 | a limit is stored modulo 2^64, unchanged when it fits |
| Dispatch.Jfs2Update | src/FsQuota.c:787-801 | the JFS2 record keeps its usage and takes the new limits and the flag as timers |
| Dispatch.SetCall | src/FsQuota.c:727-913 | the write call carries the new record and the object's argument; standard calls use the build's interface |
| Dispatch.SetQlim | src/FsQuota.c:692-917 | EINVAL for an uninitialised object; per branch (XFS, VxFS, AFS, JFS2, NetBSD, ioctl, the quotactl interfaces), the record written and the error raised; JFS2 reads the record first and keeps its usage; only NetBSD changes the store |
| Dispatch.NonZeroFlagsAgree | src/FsQuota.c:719-720 | any two non-zero time-limit flags have the same effect |
| Dispatch.NetBsdSetThenQuery | src/FsQuota.c:577-880 | on NetBSD, limits set with a reset are what `query` reads back |
| Dispatch.XfsSyncAsWrittenIgnoresFlags | src/FsQuota.c:1018-1024 | as written, a file system with user quota off syncs without error |
| Dispatch.XfsSync | src/FsQuota.c:1011-1025 | the XFS emulation succeeds exactly when Q_GETQSTAT succeeds and reports user quota accounted and enforced |
| Dispatch.Sync | src/FsQuota.c:920-1040 | EINVAL for an uninitialised object; per branch (VxFS, AFS, NetBSD, ioctl, Linux, V2, V1), the call made and the error raised: AFS failures are EINVAL, the ioctl interface never reports ESRCH, AIX reports a failing stat, and V1 syncs XFS through the corrected emulation |
| Dispatch.SyncRetvalAsWritten | src/FsQuota.c:928-1034 | the value each branch of `sync` leaves in RETVAL as written, with the XFS emulation that ignores the flags of a successful Q_GETQSTAT |
| Dispatch.SyncAsWritten | src/FsQuota.c:928-1036 | as written, on a NetBSD build the uninitialised, VxFS and AFS branches run off the end of the function with the exception they set; every other path returns RETVAL |
| Dispatch.SyncAsWrittenFallsOffEnd | src/FsQuota.c:928-958 | as written, on NetBSD an uninitialised object sets the exception and returns no defined value |
| Dispatch.SyncAsWrittenAgrees | src/FsQuota.c:920-1040 | where the code returns, the corrected `sync` returns the same outcome, except in the old interface's XFS emulation, where it agrees on success; where the code runs off the end, the corrected `sync` fails exactly with the exception that was set |
| Dispatch.SyncAsWrittenPassesXfsWithoutUserQuota | src/FsQuota.c:1011-1025 | on the old interface, XFS with a successful Q_GETQSTAT and no user quota returns None as written and ENOENT when corrected |
| Dispatch.UninitializedRefused | src/FsQuota.c:464-466 | query, setqlim and sync all refuse an uninitialised object with (EINVAL, "FsQuota.quota instance is uninitialized"); as written, NetBSD's sync sets that error and then runs off the end (src/FsQuota.c:928-1036) |

## Left out

- Python glue: argument parsing (its TypeError and OverflowError),
  reference counting, tuple and struct-sequence building, module
  initialisation. The arguments of each method are parameters.
- The system calls and libraries themselves. stat, setmntent/getmntent,
  getmntinfo, quotactl and its relatives, vx_quotactl, the afs_* calls,
  libquota, gethostbyname, the clnt*_create/clnt_call family, authunix_*,
  gethostname, getuid/getgid and gettimeofday are inputs. So is AIX's stat
  of the argument before quotactl.
- The XDR encoders and decoders. Their field order is the order of
  `Nfs.Rquota`.
- Q_DIV, Q_MUL, QX_DIV and QX_MUL. Their definitions are not part of this
  model. Block values, local ones and the NFS query's (src/FsQuota.c:557-559)
  alike, are in the unit the call delivers them in. DEV_QBSIZE
  and MAX_MACHINE_NAME are fields of `Platform`.
- AIX `vmount` walking in `my_getmntent`. The OpenBSD and OSF/1 variants of
  the BSD type field are also out. The BSD cursor models the
  `f_fstypename` build.
- The RPC client's socket, address and retry behaviour. Only the setup
  values derived from the options are modelled.
- Memory management: freeing and leaking strings. The leaked first
  `m_qcarg` buffer of the `/path@host` branch is out too.
- A `stat` failure of the path always reports ENOENT. The other errnos of
  stat(2) are not distinguished.
- Dispatch.Query: the eight returned values are unbounded integers. The
  `i` conversion of time_t timers to a C int is not modelled.
- Dispatch.NfsQuery: the `i` conversion of the NFS btime and ftime
  (src/FsQuota.c:560, 564) to a C int is not modelled either.
- NetBsdQuota.Query: the `i` conversion of the NetBSD expiry times
  (src/FsQuota.c:596, 600) to a C int is not modelled either.
- Nfs.Normalise: the block and file values of `struct quota_xs_nfs_rslt`
  are C doubles (src/FsQuota.c:78-88). The model keeps exact integers, so
  the rounding of the scaling (src/FsQuota.c:253-269) above 2^53 is not
  modelled.
- Nfs.GraceTime: the clock is a 64-bit `time_t`. On a build with a 32-bit
  `time_t` the comparison is made in unsigned arithmetic, which is not
  modelled.
- QuotaObject.Render: its contract states the outer shape of the text, not
  every character.
- The object's fields after a failed argument parse in `Quota_init`. The
  parse error is not modelled.

## Findings

| source | as written | input that shows it | evidently intended | confidence | as-written member | corrected member |
|---|---|---|---|---|---|---|
| src/FsQuota.c:1701-1734 | the target's st_dev is kept in a C `int` and converted back for the comparison | a file system whose st_dev is 2^31 (`Resolve.AsWrittenMissesLargeDevice`) | a path resolves to the mount point with the same st_dev, whatever its size | medium, not executed; needs device numbers of 2^31 or more | Resolve.OnTargetDeviceAsWritten | Resolve.SetQcarg |
| src/FsQuota.c:261-269 | a non-zero block size below DEV_QBSIZE gives the divisor DEV_QBSIZE / bsize, also for a negative size | rq_bsize = -2048 with DEV_QBSIZE 1024: the divisor is 0 (`Nfs.NegativeBlockSizeDividesByZero`) | a size that is not positive leaves the counts unscaled | medium, not executed; needs a server sending a negative block size | Nfs.BlockFactorAsWritten | Nfs.ScaleBlocks |
| src/FsQuota.c:642-650 | the JFS2 tuple is built from ihard, isoft, iused for the file usage, soft and hard positions | 10 files in use under a hard limit of 100 are reported as 100 in use (`Dispatch.Jfs2AsWrittenSwapsFiles`) | the file fields in the order of every other backend: usage, soft, hard | high, not executed | Dispatch.Jfs2TupleAsWritten | Dispatch.Query |
| src/FsQuota.c:1018-1024 | the XFS sync emulation examines the status flags only when Q_GETQSTAT failed, i.e. in a buffer the call did not fill | a successful Q_GETQSTAT reporting no user quota syncs without error (`Dispatch.XfsSyncAsWrittenIgnoresFlags`) | a failing call raises its errno; a successful one without user quota raises ENOENT | medium, not executed | Dispatch.XfsSyncAsWritten | Dispatch.XfsSync |
| src/FsQuota.c:577-604 | on NetBSD a failed quota_open or quota_get leaves the method returning NULL without an exception | a path whose quota cannot be opened (`NetBsdQuota.QueryAsWrittenRaisesNothing`) | the errno is raised as a quotactl error, as on every other backend | high, not executed | NetBsdQuota.QueryAsWritten | NetBsdQuota.Query |
| src/FsQuota.c:1182-1193 | the port and use_tcp arguments are passed in the opposite order to the `use_tcp:%d, port:%d` format | port 2049 over UDP shows `use_tcp:2049, port:0` (`QuotaObject.ReprAsWrittenSwapsPort`) | each option printed under its own name | high, not executed | QuotaObject.ReprAsWritten | QuotaObject.Repr |
| src/FsQuota.c:928-958, 1036 | on a NetBSD build only a comment follows the last `else`, so `return RETVAL;` becomes its body and the uninitialised, VxFS and AFS branches run off the end of a non-void function | `sync()` on an uninitialised object in a NetBSD build (`Dispatch.SyncAsWrittenFallsOffEnd`) | every branch returns RETVAL: the exception with NULL, or None | high, not executed | Dispatch.SyncAsWritten | Dispatch.Sync |
| src/FsQuota.c:1216-1226 | the AttributeError of the generic lookup is cleared before the `dev` fields are examined, and nothing is returned when neither is set | `dev` of a new, unresolved object: NULL with no exception set, which Python reports as SystemError (`QuotaObject.UnresolvedDevAsWrittenRaisesNothing`) | an unresolved object has no `dev` attribute: the AttributeError stands | high, not executed | QuotaObject.DevAsWritten | QuotaObject.Dev |

=== FILE: cstring.dfy ===
/** The C string primitives the quota module relies on, over `string`.
    A C string never holds a NUL character, so `strdup` followed by
    overwriting position i with NUL is the prefix `s[..i]`. */
module CString {
  import opened Wrappers

  /** `strncmp(s, prefix, strlen(prefix)) == 0`: s begins with prefix. */
  predicate StartsWith(s: string, prefix: string) {
    |prefix| <= |s| && s[..|prefix|] == prefix
  }

  /** `strchr(s + from, c)`: the index of the first c at or after from. */
  function IndexFrom(s: string, c: char, from: nat): (r: Option<nat>)
    ensures r.Some? ==> from <= r.value < |s| && s[r.value] == c
    ensures r.Some? ==> forall j :: from <= j < r.value ==> s[j] != c
    ensures r.None? ==> forall j :: from <= j < |s| ==> s[j] != c
    decreases |s| - from
  {
    if from >= |s| then None
    else if s[from] == c then Some(from)
    else IndexFrom(s, c, from + 1)
  }

  /** `strchr(s, c)`. */
  function IndexOf(s: string, c: char): Option<nat> {
    IndexFrom(s, c, 0)
  }

  /** pat occurs in s starting at index i. */
  predicate OccursAt(s: string, pat: string, i: nat) {
    i + |pat| <= |s| && s[i..i + |pat|] == pat
  }

  /** `strstr(s + from, pat)`: the first occurrence of pat at or after from. */
  function FindFrom(s: string, pat: string, from: nat): (r: Option<nat>)
    ensures r.Some? ==> from <= r.value && OccursAt(s, pat, r.value)
    ensures r.Some? ==> forall j :: from <= j < r.value ==> !OccursAt(s, pat, j)
    ensures r.None? ==> forall j :: from <= j ==> !OccursAt(s, pat, j)
    decreases |s| - from
  {
    if from + |pat| > |s| then None
    else if s[from..from + |pat|] == pat then Some(from)
    else FindFrom(s, pat, from + 1)
  }

  /** `strstr(s, pat)`. */
  function Find(s: string, pat: string): Option<nat> {
    FindFrom(s, pat, 0)
  }

  // ---------------------------------------------------------------------
  // Byte length. A Python `str` reaches C (PyArg format `s`) as its UTF-8
  // encoding, so `strlen` counts bytes, not characters.

  /** The number of bytes of c in UTF-8. */
  function Utf8Width(c: char): (n: nat)
    ensures 1 <= n <= 4
    ensures n == 1 <==> c as int < 0x80
    ensures n == 2 <==> 0x80 <= c as int < 0x800
  {
    if c as int < 0x80 then 1
    else if c as int < 0x800 then 2
    else if c as int < 0x1_0000 then 3
    else 4
  }

  /** `strlen` of the UTF-8 encoding of s. */
  function Utf8Length(s: string): (n: nat)
    ensures |s| <= n <= 4 * |s|
    ensures (forall i :: 0 <= i < |s| ==> s[i] as int < 0x80) ==> n == |s|
  {
    if |s| == 0 then 0 else Utf8Width(s[0]) + Utf8Length(s[1..])
  }

  /** A text of two-byte characters (Latin-1 letters with accents, Greek,
      Cyrillic, ...) is twice as long in bytes as in characters. */
  lemma {:induction false} TwoByteTextDoubles(s: string)
    requires forall i :: 0 <= i < |s| ==> 0x80 <= s[i] as int < 0x800
    ensures Utf8Length(s) == 2 * |s|
  {
    if |s| > 0 {
      assert forall i :: 0 <= i < |s[1..]| ==> s[1..][i] == s[i + 1];
      TwoByteTextDoubles(s[1..]);
    }
  }

  // ---------------------------------------------------------------------
  // Decimal rendering, as `snprintf(buf, size, "%d", n)` produces it

  function DigitChar(d: nat): (c: char)
    requires d < 10
    ensures '0' <= c <= '9'
  {
    "0123456789"[d]
  }

  function DigitValue(c: char): nat
    requires '0' <= c <= '9'
  {
    (c as int - '0' as int) as nat
  }

  predicate AllDigits(s: string) {
    forall i :: 0 <= i < |s| ==> '0' <= s[i] <= '9'
  }

  /** The decimal digits of n, most significant first, without leading zeros. */
  function Digits(n: nat): (r: string)
    ensures |r| >= 1 && AllDigits(r)
  {
    if n < 10 then [DigitChar(n)] else Digits(n / 10) + [DigitChar(n % 10)]
  }

  /** `"%d"` of n. */
  function DecimalString(n: int): string {
    if n < 0 then "-" + Digits(-n) else Digits(n)
  }

  /** The value of a string of decimal digits. */
  function ParseDigits(s: string): nat
    requires AllDigits(s)
  {
    if |s| == 0 then 0
    else ParseDigits(s[..|s| - 1]) * 10 + DigitValue(s[|s| - 1])
  }

  /** What `atoi` makes of the output of `"%d"`. */
  function ParseDecimal(s: string): int {
    if |s| > 0 && s[0] == '-' && AllDigits(s[1..]) then -(ParseDigits(s[1..]) as int)
    else if AllDigits(s) then ParseDigits(s)
    else 0
  }

  lemma {:induction false} DigitValueOfDigitChar(d: nat)
    requires d < 10
    ensures DigitValue(DigitChar(d)) == d
  {
  }

  lemma {:induction false} ParseDigitsInvertsDigits(n: nat)
    ensures ParseDigits(Digits(n)) == n
    decreases n
  {
    if n < 10 {
      DigitValueOfDigitChar(n);
    } else {
      var front := Digits(n / 10);
      var s := front + [DigitChar(n % 10)];
      assert s[..|s| - 1] == front;
      assert s[|s| - 1] == DigitChar(n % 10);
      ParseDigitsInvertsDigits(n / 10);
      DigitValueOfDigitChar(n % 10);
    }
  }

  /** Rendering with `"%d"` loses nothing: parsing the text gives n back. */
  lemma {:induction false} DecimalStringRoundTrip(n: int)
    ensures ParseDecimal(DecimalString(n)) == n
  {
    if n < 0 {
      assert DecimalString(n) == "-" + Digits(-n);
      NegativeRoundTrip(-n);
    } else {
      assert DecimalString(n) == Digits(n);
      NonNegativeRoundTrip(n);
    }
  }

  lemma {:induction false} NegativeRoundTrip(m: nat)
    ensures ParseDecimal("-" + Digits(m)) == -(m as int)
  {
    var s := "-" + Digits(m);
    assert s[0] == '-' && s[1..] == Digits(m);
    ParseDigitsInvertsDigits(m);
  }

  lemma {:induction false} NonNegativeRoundTrip(n: nat)
    ensures ParseDecimal(Digits(n)) == n
  {
    var s := Digits(n);
    assert '0' <= s[0] <= '9';
    ParseDigitsInvertsDigits(n);
  }
}

=== FILE: dispatch.dfy ===
/** The three quota methods of a `quota` object — `query`, `setqlim` and
    `sync` — as a dispatch over the resolved device type and the build's
    quota interface. Every system call is an input: `Env` says what each
    call would answer. */
module Dispatch {
  import opened Wrappers
  import opened QuotaTypes
  import opened Errors
  import opened RpcOptions
  import opened Nfs
  import opened NetBsdQuota
  import opened QuotaObject

  const UninitializedText := "FsQuota.quota instance is uninitialized"

  /** Which call family a request goes to. */
  datatype Target = XfsCall | VxfsCall | AfsCall | Jfs2Call | StandardCall(api: QuotaApi)

  /** What a request asks: read the record, write one, or flush. */
  datatype Op = GetQuota | PutQuota(record: Usage) | SyncQuota

  /** One quota system call: family, operation, device argument, id and id type. */
  datatype SysCall = SysCall(target: Target, op: Op, qcarg: string, id: int, idType: IdType)

  /** The answers of the system: each quota call's record or errno; the
      errno of opening (USE_IOCTL) or stat'ing (AIX) the device argument,
      if that fails; afs_check(); the flags Q_GETQSTAT leaves in its buffer;
      the NetBSD quota store; and the rquota calls with the current time. */
  datatype Env = Env(
    sys: SysCall -> Result<Usage, int>,
    openErr: Option<int>,
    statErr: Option<int>,
    afsReady: bool,
    qstatFlags: bv16,
    store: Store,
    ext: CallEnv<GetQuotaRslt>,
    legacy: CallEnv<GetQuotaRslt>,
    now: int)

  function Uninitialized(): FsQuotaError {
    QuotaCtlException(Invalid, EINVAL, Some(UninitializedText))
  }

  /** The outcome of a call that returns no value. */
  function Check(q: Quota, r: Result<Usage, int>): (o: Outcome<FsQuotaError>)
    ensures o.Done? <==> r.Ok?
    ensures r.Err? ==> o.error == QuotaCtlException(q.devType, r.error, None)
  {
    if r.Ok? then Done else Failed(QuotaCtlException(q.devType, r.error, None))
  }

  // ---------------------------------------------------------------------
  // query

  /** The tuple of an AFS volume quota: the blocks in use, the maximum as
      both limits, and zeros elsewhere. The AFS call reports its maximum in
      `bhard` and its usage in `bcur`. */
  function AfsTuple(u: Usage): Usage {
    Usage(u.bcur, u.bhard, u.bhard, 0, 0, 0, 0, 0)
  }

  /** The JFS2 tuple as written: the file fields are built from ihard,
      isoft, iused, so the current count and the hard limit trade places. */
  function Jfs2TupleAsWritten(u: Usage): Usage {
    Usage(u.bcur, u.bsoft, u.bhard, u.btime, u.fhard, u.fsoft, u.fcur, u.ftime)
  }

  /** A JFS2 record with 10 files in use under a hard limit of 100 reports 100 in use. */
  lemma Jfs2AsWrittenSwapsFiles()
    ensures var u := Jfs2TupleAsWritten(Usage(0, 0, 0, 0, 10, 50, 100, 0));
            u.fcur == 100 && u.fhard == 10
  {
  }

  /** The query call of the local quota interface, when the branch issues
      one. afs_getquota asks about the volume and takes no id. */
  function LocalQueryCall(p: Platform, q: Quota, qcarg: string, uid: int, kind: int): (c: SysCall)
    ensures c.op == GetQuota && c.qcarg == qcarg
    ensures c.id == if c.target == AfsCall then 0 else uid
    ensures c.target == AfsCall <==> q.devType == AFS && p.afsQuota && !(q.devType == XFS && p.sgiXfs)
    ensures c.idType == ProjectQuota ==> c.target == XfsCall && p.linux && kind == 2
    ensures c.target.StandardCall? ==> c.target.api == p.api
  {
    if q.devType == XFS && p.sgiXfs then
      SysCall(XfsCall, GetQuota, qcarg, uid, if p.linux then XfsIdType(kind) else UserQuota)
    else if q.devType == VxFS && p.solarisVxfs then SysCall(VxfsCall, GetQuota, qcarg, uid, UserQuota)
    else if q.devType == AFS && p.afsQuota then SysCall(AfsCall, GetQuota, qcarg, 0, UserQuota)
    else if p.api == QuotactlV2 && p.aix && p.hasJfs2 && q.devType == JFS2 then
      SysCall(Jfs2Call, GetQuota, qcarg, uid, KindIdType(kind))
    else
      SysCall(StandardCall(p.api), GetQuota, qcarg, uid,
              if p.api in {LinuxQuotactl, QuotactlV2} then KindIdType(kind) else UserQuota)
  }

  /** The local branches that go to the build's own quota interface: not
      remote, and not a file system with an interface of its own. */
  predicate StandardBranch(p: Platform, q: Quota) {
    && q.devType !in {Invalid, NFS}
    && !(q.devType == XFS && p.sgiXfs)
    && !(q.devType == VxFS && p.solarisVxfs)
    && !(q.devType == AFS && p.afsQuota)
  }

  /** r reports the record a call answered, or raises the call's errno. */
  predicate Reports(q: Quota, r: QueryOutcome, answer: Result<Usage, int>) {
    if answer.Ok? then r == Value(answer.value)
    else r == Raised(QuotaCtlException(q.devType, answer.error, None))
  }

  /** The tuple of a successful NFS query. */
  function NfsTuple(n: NfsQuota): Usage {
    Usage(n.bcur, n.bsoft, n.bhard, n.btime, n.fcur, n.fsoft, n.fhard, n.ftime)
  }

  /** The remote branch: an RPC failure raises ECOMM with the RPC message,
      a refusing status raises its errno through the quotactl table. */
  function NfsQuery(p: Platform, q: Quota, uid: int, kind: int, env: Env): (r: QueryOutcome)
    requires Wellformed(q) && q.devType == NFS
    ensures !p.rpc ==> r == Raised(QuotaCtlException(NFS, ENOSYS, Some("RPC not supported for this platform")))
    ensures p.rpc ==>
      var o := GetNfsQuota(p, q.rpcHost.value, q.qcarg.value, uid, kind, q.rpcOpt, env.ext, env.legacy, env.now);
      && (r.Value? <==> o.result.Ok?)
      && (o.result.Ok? ==> r.usage == NfsTuple(o.result.value))
      && (o.result.Err? && o.result.error.RpcFailed? ==> r == Raised(FsQuotaError(ECOMM, o.result.error.text)))
      && (o.result.Err? && o.result.error.StatusErrno? ==>
            r == Raised(QuotaCtlException(NFS, o.result.error.errnum, None)))
  {
    if !p.rpc then Raised(QuotaCtlException(NFS, ENOSYS, Some("RPC not supported for this platform")))
    else
      var o := GetNfsQuota(p, q.rpcHost.value, q.qcarg.value, uid, kind, q.rpcOpt, env.ext, env.legacy, env.now);
      match o.result
      case Ok(n) => Value(NfsTuple(n))
      case Err(RpcFailed(t)) => Raised(FsQuotaError(ECOMM, t))
      case Err(StatusErrno(e)) => Raised(QuotaCtlException(NFS, e, None))
  }

  /** The local branch, given how the NetBSD sub-branch treats its failures. */
  function LocalQuery(p: Platform, q: Quota, uid: int, kind: int, env: Env, netbsd: QueryOutcome): (r: QueryOutcome)
    requires Wellformed(q) && q.devType != Invalid
    ensures var call := LocalQueryCall(p, q, q.qcarg.value, uid, kind);
            call.target.StandardCall? && p.api == NetBsdLibquota ==> r == netbsd
    ensures var call := LocalQueryCall(p, q, q.qcarg.value, uid, kind);
            !(call.target.StandardCall? && p.api == NetBsdLibquota) ==> r != NullWithoutException
    ensures var call := LocalQueryCall(p, q, q.qcarg.value, uid, kind);
            r.Value? && !(call.target.StandardCall? && p.api == NetBsdLibquota) ==>
              env.sys(call).Ok? && r.usage == if call.target == AfsCall then AfsTuple(env.sys(call).value) else env.sys(call).value
  {
    var qcarg := q.qcarg.value;
    var call := LocalQueryCall(p, q, qcarg, uid, kind);
    if call.target == AfsCall && !env.afsReady then Raised(OsException(EINVAL, "AFS setup failed"))
    else if call.target.StandardCall? && p.api == NetBsdLibquota then netbsd
    else if call.target.StandardCall? && p.api == QuotaIoctl && env.openErr.Some? then
      Raised(QuotaCtlException(q.devType, env.openErr.value, None))
    else if (call.target == Jfs2Call || (call.target.StandardCall? && p.api == QuotactlV2 && p.aix)) && env.statErr.Some? then
      Raised(QuotaCtlException(q.devType, env.statErr.value, None))
    else match env.sys(call)
      case Err(e) => Raised(QuotaCtlException(q.devType, e, None))
      case Ok(u) =>
        Value(if call.target == AfsCall then AfsTuple(u) else u)
  }

  /** `query` as written: the JFS2 tuple swapped and the NetBSD failures
      returned without an exception. */
  function QueryAsWritten(p: Platform, q: Quota, uid: int, kind: int, env: Env): (r: QueryOutcome)
    requires Wellformed(q)
    ensures q.devType == Invalid ==> r == Raised(Uninitialized())
    ensures q.devType == NFS ==> r == NfsQuery(p, q, uid, kind, env)
    ensures r == NullWithoutException ==> p.api == NetBsdLibquota && q.devType !in {Invalid, NFS}
    ensures q.devType !in {Invalid, NFS} && r.Value? && LocalQueryCall(p, q, q.qcarg.value, uid, kind).target == Jfs2Call ==>
      var u := env.sys(LocalQueryCall(p, q, q.qcarg.value, uid, kind));
      u.Ok? && r.usage == Jfs2TupleAsWritten(u.value)
  {
    if q.devType == Invalid then Raised(Uninitialized())
    else if q.devType == NFS then NfsQuery(p, q, uid, kind, env)
    else
      var r := LocalQuery(p, q, uid, kind, env, NetBsdQuota.QueryAsWritten(q.devType, env.store, uid, kind));
      var call := LocalQueryCall(p, q, q.qcarg.value, uid, kind);
      if call.target == Jfs2Call && r.Value? then Value(Jfs2TupleAsWritten(r.usage)) else r
  }

  /** On NetBSD, a path whose quota cannot be opened makes the as-written
      `query` return NULL with no exception set. */
  lemma QueryAsWrittenLosesNetBsdError(p: Platform, env: Env)
    requires p.api == NetBsdLibquota && !p.sgiXfs && !p.solarisVxfs && !p.afsQuota
    requires env.store.openErr == Some(ENOENT)
    ensures QueryAsWritten(p, Quota(Some("/home"), Some("/dev/wd0a"), None, Regular, DefaultRpcOpt()), 1000, 0, env)
            == NullWithoutException
  {
  }

  /** `query(uid, kind)`: the uninitialised guard, the remote branch, then
      the local call of the device type and build. */
  function Query(p: Platform, q: Quota, uid: int, kind: int, env: Env): (r: QueryOutcome)
    requires Wellformed(q)
    ensures r != NullWithoutException
    ensures q.devType == Invalid ==> r == Raised(Uninitialized())
    ensures q.devType == NFS ==> r == NfsQuery(p, q, uid, kind, env)
    ensures q.devType == XFS && p.sgiXfs ==>
      Reports(q, r, env.sys(SysCall(XfsCall, GetQuota, q.qcarg.value, uid, if p.linux then XfsIdType(kind) else UserQuota)))
    ensures q.devType == VxFS && p.solarisVxfs ==>
      Reports(q, r, env.sys(SysCall(VxfsCall, GetQuota, q.qcarg.value, uid, UserQuota)))
    ensures q.devType == AFS && p.afsQuota ==>
      var a := env.sys(SysCall(AfsCall, GetQuota, q.qcarg.value, 0, UserQuota));
      r == if !env.afsReady then Raised(OsException(EINVAL, "AFS setup failed"))
           else if a.Ok? then Value(AfsTuple(a.value))
           else Raised(QuotaCtlException(AFS, a.error, None))
    ensures StandardBranch(p, q) && p.api == NetBsdLibquota ==>
      r == NetBsdQuota.Query(q.devType, env.store, uid, kind)
    ensures StandardBranch(p, q) && p.api == QuotaIoctl ==>
      if env.openErr.Some? then r == Raised(QuotaCtlException(q.devType, env.openErr.value, None))
      else Reports(q, r, env.sys(SysCall(StandardCall(QuotaIoctl), GetQuota, q.qcarg.value, uid, UserQuota)))
    ensures StandardBranch(p, q) && p.api == LinuxQuotactl ==>
      Reports(q, r, env.sys(SysCall(StandardCall(LinuxQuotactl), GetQuota, q.qcarg.value, uid, KindIdType(kind))))
    ensures StandardBranch(p, q) && p.api == QuotactlV2 ==>
      if p.aix && env.statErr.Some? then r == Raised(QuotaCtlException(q.devType, env.statErr.value, None))
      else Reports(q, r, env.sys(SysCall(if p.aix && p.hasJfs2 && q.devType == JFS2 then Jfs2Call else StandardCall(QuotactlV2),
                                         GetQuota, q.qcarg.value, uid, KindIdType(kind))))
    ensures StandardBranch(p, q) && p.api == QuotactlV1 ==>
      Reports(q, r, env.sys(SysCall(StandardCall(QuotactlV1), GetQuota, q.qcarg.value, uid, UserQuota)))
    ensures q.devType !in {Invalid, NFS} && QueryAsWritten(p, q, uid, kind, env) != NullWithoutException &&
            (q.devType != JFS2 || !r.Value? || r.usage.fcur == r.usage.fhard) ==>
      QueryAsWritten(p, q, uid, kind, env) == r
  {
    if q.devType == Invalid then Raised(Uninitialized())
    else if q.devType == NFS then NfsQuery(p, q, uid, kind, env)
    else LocalQuery(p, q, uid, kind, env, NetBsdQuota.Query(q.devType, env.store, uid, kind))
  }

  /** A project query is a group query everywhere except on Linux XFS. */
  lemma ProjectQueryIsGroupQuery(p: Platform, q: Quota, uid: int, env: Env)
    requires Wellformed(q)
    requires !(q.devType == XFS && p.sgiXfs && p.linux)
    ensures Query(p, q, uid, 2, env) == Query(p, q, uid, 1, env)
  {
  }

  /** On Linux XFS the three kinds address three different id types. */
  lemma XfsKindsAreDistinct(p: Platform, q: Quota, uid: int)
    requires Wellformed(q) && q.devType == XFS && p.sgiXfs && p.linux
    ensures LocalQueryCall(p, q, q.qcarg.value, uid, 0).idType == UserQuota
    ensures LocalQueryCall(p, q, q.qcarg.value, uid, 1).idType == GroupQuota
    ensures LocalQueryCall(p, q, q.qcarg.value, uid, 2).idType == ProjectQuota
  {
  }

  /** A server answering Q_NOQUOTA surfaces as ESRCH, "No quota for this user". */
  lemma NoQuotaIsEsrch(p: Platform, q: Quota, uid: int, kind: int, env: Env)
    requires Wellformed(q) && q.devType == NFS && p.rpc && !p.extRquota
    requires CallAuRpc(env.legacy).Ok? && env.legacy.reply.status == Q_NOQUOTA
    ensures Query(p, q, uid, kind, env) == Raised(FsQuotaError(ESRCH, Literal("No quota for this user")))
  {
  }

  // ---------------------------------------------------------------------
  // setqlim

  /** `timelimflag` as stored: any non-zero value is 1. */
  function TimelimFlag(t: int): (f: int)
    ensures f == 0 || f == 1
    ensures f == 1 <==> t != 0
  {
    if t != 0 then 1 else 0
  }

  /** `K` stores a Python integer into an unsigned long long without an
      overflow check: the value modulo 2^64. */
  const UInt64Modulus := 0x1_0000_0000_0000_0000

  function U64(x: int): (r: nat)
    ensures r < UInt64Modulus && (r - x) % UInt64Modulus == 0
    ensures 0 <= x < UInt64Modulus ==> r == x
  {
    x % UInt64Modulus
  }

  /** The record a limit-setting call writes: the new limits, the flag as
      both timers, and no current usage. */
  function LimitRecord(bs: nat, bh: nat, fs: nat, fh: nat, flag: int): Usage {
    Usage(0, bs, bh, flag, 0, fs, fh, flag)
  }

  /** The JFS2 record put back after reading it: limits and timers replaced,
      usage kept. */
  function Jfs2Update(u: Usage, bs: nat, bh: nat, fs: nat, fh: nat, flag: int): (r: Usage)
    ensures r.bcur == u.bcur && r.fcur == u.fcur
    ensures r.(bcur := 0, fcur := 0) == LimitRecord(bs, bh, fs, fh, flag)
  {
    u.(bsoft := bs, bhard := bh, btime := flag, fsoft := fs, fhard := fh, ftime := flag)
  }

  /** The write call of the local interface for a set of limits. */
  function SetCall(p: Platform, q: Quota, qcarg: string, uid: int, kind: int, rec: Usage): (c: SysCall)
    ensures c.op == PutQuota(rec) && c.qcarg == qcarg
    ensures c.target.StandardCall? ==> c.target.api == p.api
  {
    if q.devType == XFS && p.sgiXfs then
      SysCall(XfsCall, PutQuota(rec), qcarg, uid, if p.linux then XfsIdType(kind) else UserQuota)
    else if q.devType == VxFS && p.solarisVxfs then SysCall(VxfsCall, PutQuota(rec), qcarg, uid, UserQuota)
    else if q.devType == AFS && p.afsQuota then SysCall(AfsCall, PutQuota(rec), qcarg, 0, UserQuota)
    else if q.devType == JFS2 && p.hasJfs2 then SysCall(Jfs2Call, PutQuota(rec), qcarg, uid, KindIdType(kind))
    else
      SysCall(StandardCall(p.api), PutQuota(rec), qcarg, uid,
              if p.api in {LinuxQuotactl, QuotactlV2} then KindIdType(kind) else UserQuota)
  }

  /** The result of `setqlim`: the NetBSD store afterwards, and the outcome. */
  datatype SetResult = SetResult(store: Store, outcome: Outcome<FsQuotaError>)

  /** `setqlim(uid, bs, bh, fs, fh, timelimflag, kind)`. A remote object has
      no branch of its own: it goes to the local call with the remote path. */
  function SetQlim(p: Platform, q: Quota, uid: int, bs: int, bh: int, fs: int, fh: int,
                   timelimflag: int, kind: int, env: Env): (r: SetResult)
    requires Wellformed(q)
    ensures q.devType == Invalid ==> r == SetResult(env.store, Failed(Uninitialized()))
    ensures r.store != env.store ==> p.api == NetBsdLibquota && q.devType != Invalid
    ensures q.devType == XFS && p.sgiXfs ==>
      r.outcome == Check(q, env.sys(SetCall(p, q, q.qcarg.value, uid, kind,
                                            LimitRecord(U64(bs), U64(bh), U64(fs), U64(fh), TimelimFlag(timelimflag)))))
    ensures q.devType == AFS && p.afsQuota ==>
      r.outcome == if !env.afsReady then Failed(QuotaCtlException(AFS, EINVAL, Some("AFS setup via afc_check failed")))
                   else Check(q, env.sys(SetCall(p, q, q.qcarg.value, uid, kind, Usage(0, 0, U64(bh), 0, 0, 0, 0, 0))))
    ensures q.devType !in {Invalid, XFS, VxFS, AFS, JFS2} && p.api == NetBsdLibquota ==>
      (r.store, r.outcome) == SetLimits(q.devType, env.store, uid, kind, U64(bs), U64(bh), U64(fs), U64(fh), TimelimFlag(timelimflag))
    ensures q.devType == VxFS && p.solarisVxfs ==>
      r == SetResult(env.store, Check(q, env.sys(SetCall(p, q, q.qcarg.value, uid, kind,
                                                         LimitRecord(U64(bs), U64(bh), U64(fs), U64(fh), TimelimFlag(timelimflag))))))
    ensures q.devType == JFS2 && p.hasJfs2 ==>
      var get := env.sys(SysCall(Jfs2Call, GetQuota, q.qcarg.value, uid, KindIdType(kind)));
      r == SetResult(env.store,
             if get.Err? then Failed(QuotaCtlException(JFS2, get.error, None))
             else Check(q, env.sys(SetCall(p, q, q.qcarg.value, uid, kind,
                                           Jfs2Update(get.value, U64(bs), U64(bh), U64(fs), U64(fh), TimelimFlag(timelimflag))))))
    ensures q.devType !in {Invalid, XFS, VxFS, AFS, JFS2} && p.api in {LinuxQuotactl, QuotactlV2, QuotactlV1} ==>
      r == SetResult(env.store, Check(q, env.sys(SetCall(p, q, q.qcarg.value, uid, kind,
                                                         LimitRecord(U64(bs), U64(bh), U64(fs), U64(fh), TimelimFlag(timelimflag))))))
    ensures q.devType !in {Invalid, XFS, VxFS, AFS, JFS2} && p.api == QuotaIoctl ==>
      r.outcome == if env.openErr.Some? then Failed(OsException(env.openErr.value, "opening device"))
                   else Check(q, env.sys(SetCall(p, q, q.qcarg.value, uid, kind,
                                                 LimitRecord(U64(bs), U64(bh), U64(fs), U64(fh), TimelimFlag(timelimflag)))))
  {
    var flag := TimelimFlag(timelimflag);
    var (bs, bh, fs, fh) := (U64(bs), U64(bh), U64(fs), U64(fh));
    if q.devType == Invalid then SetResult(env.store, Failed(Uninitialized()))
    else
      var qcarg := q.qcarg.value;
      var rec := LimitRecord(bs, bh, fs, fh, flag);
      if q.devType == XFS && p.sgiXfs then SetResult(env.store, Check(q, env.sys(SetCall(p, q, qcarg, uid, kind, rec))))
      else if q.devType == VxFS && p.solarisVxfs then SetResult(env.store, Check(q, env.sys(SetCall(p, q, qcarg, uid, kind, rec))))
      else if q.devType == AFS && p.afsQuota then
        if !env.afsReady then SetResult(env.store, Failed(QuotaCtlException(AFS, EINVAL, Some("AFS setup via afc_check failed"))))
        else SetResult(env.store, Check(q, env.sys(SetCall(p, q, qcarg, uid, kind, Usage(0, 0, bh, 0, 0, 0, 0, 0)))))
      else if q.devType == JFS2 && p.hasJfs2 then
        var get := SysCall(Jfs2Call, GetQuota, qcarg, uid, KindIdType(kind));
        match env.sys(get)
        case Err(e) => SetResult(env.store, Failed(QuotaCtlException(q.devType, e, None)))
        case Ok(u) => SetResult(env.store, Check(q, env.sys(SetCall(p, q, qcarg, uid, kind, Jfs2Update(u, bs, bh, fs, fh, flag)))))
      else if p.api == NetBsdLibquota then
        var (s, o) := SetLimits(q.devType, env.store, uid, kind, bs, bh, fs, fh, flag);
        SetResult(s, o)
      else if p.api == QuotaIoctl && env.openErr.Some? then
        SetResult(env.store, Failed(OsException(env.openErr.value, "opening device")))
      else SetResult(env.store, Check(q, env.sys(SetCall(p, q, qcarg, uid, kind, rec))))
  }

  /** Only the normalised flag reaches the record: any two non-zero flags act alike. */
  lemma NonZeroFlagsAgree(p: Platform, q: Quota, uid: int, bs: int, bh: int, fs: int, fh: int, t1: int, t2: int, kind: int, env: Env)
    requires Wellformed(q) && t1 != 0 && t2 != 0
    ensures SetQlim(p, q, uid, bs, bh, fs, fh, t1, kind, env) == SetQlim(p, q, uid, bs, bh, fs, fh, t2, kind, env)
  {
  }

  /** On the quotactl interfaces the flag becomes both timers of the record
      written: 1 for any non-zero flag, 0 otherwise, beside the new limits
      and no usage. */
  lemma SetQlimWritesFlagAsTimers(p: Platform, q: Quota, uid: int, bs: nat, bh: nat, fs: nat, fh: nat,
                                  timelimflag: int, kind: int, env: Env)
    requires Wellformed(q) && q.devType !in {Invalid, XFS, VxFS, AFS, JFS2}
    requires p.api in {LinuxQuotactl, QuotactlV2, QuotactlV1}
    requires bs < UInt64Modulus && bh < UInt64Modulus && fs < UInt64Modulus && fh < UInt64Modulus
    ensures var flag := if timelimflag == 0 then 0 else 1;
            SetQlim(p, q, uid, bs, bh, fs, fh, timelimflag, kind, env).outcome
            == Check(q, env.sys(SetCall(p, q, q.qcarg.value, uid, kind, Usage(0, bs, bh, flag, 0, fs, fh, flag))))
  {
  }

  /** On NetBSD, limits set with a reset read back through `query`. */
  lemma {:induction false} NetBsdSetThenQuery(p: Platform, q: Quota, uid: int, bs: nat, bh: nat, fs: nat, fh: nat, kind: int, env: Env)
    requires Wellformed(q) && q.devType == Regular && p.api == NetBsdLibquota
    requires !p.sgiXfs && !p.solarisVxfs && !p.afsQuota
    requires bs < UInt64Modulus && bh < UInt64Modulus && fs < UInt64Modulus && fh < UInt64Modulus
    requires SetQlim(p, q, uid, bs, bh, fs, fh, 1, kind, env).outcome.Done?
    ensures Query(p, q, uid, kind, env.(store := SetQlim(p, q, uid, bs, bh, fs, fh, 1, kind, env).store))
            == Value(Usage(0, bs, bh, 0, 0, fs, fh, 0))
  {
    ResetThenQuery(Regular, env.store, uid, kind, bs, bh, fs, fh, 1);
  }

  // ---------------------------------------------------------------------
  // sync

  /** XFS_QUOTA_UDQ_ACCT | XFS_QUOTA_UDQ_ENFD: user quota accounted and enforced. */
  const XFS_UQUOTA: bv16 := 3

  /** The XFS emulation of `sync` on the old quotactl interface, as written:
      the flags are examined only when Q_GETQSTAT has failed (so in a buffer
      it did not fill), and a successful call never checks them. */
  function XfsSyncAsWritten(q: Quota, qstat: Result<Usage, int>, flags: bv16): Outcome<FsQuotaError> {
    if qstat.Ok? then Done
    else if flags & XFS_UQUOTA != XFS_UQUOTA then Failed(QuotaCtlException(q.devType, ENOENT, None))
    else Failed(QuotaCtlException(q.devType, qstat.error, None))
  }

  /** A file system reporting user quota off is synced "successfully". */
  lemma XfsSyncAsWrittenIgnoresFlags(q: Quota)
    ensures XfsSyncAsWritten(q, Ok(Usage(0, 0, 0, 0, 0, 0, 0, 0)), 0) == Done
  {
  }

  /** The XFS emulation as evidently intended: a failing Q_GETQSTAT raises
      its errno; a successful one without user quota enforced raises ENOENT. */
  function XfsSync(q: Quota, qstat: Result<Usage, int>, flags: bv16): (o: Outcome<FsQuotaError>)
    ensures o.Done? <==> qstat.Ok? && flags & XFS_UQUOTA == XFS_UQUOTA
    ensures qstat.Err? ==> o == Failed(QuotaCtlException(q.devType, qstat.error, None))
    ensures qstat.Ok? && o.Failed? ==> o.error.errnum == ENOENT
    ensures o.Done? ==> XfsSyncAsWritten(q, qstat, flags) == o
  {
    if qstat.Err? then Failed(QuotaCtlException(q.devType, qstat.error, None))
    else if flags & XFS_UQUOTA != XFS_UQUOTA then Failed(QuotaCtlException(q.devType, ENOENT, None))
    else Done
  }

  function SyncCall(target: Target, qcarg: string): SysCall {
    SysCall(target, SyncQuota, qcarg, 0, UserQuota)
  }

  /** The branches of `sync` after the VxFS and AFS ones: the build's own
      interface (where XFS is handled per interface). */
  predicate SyncStandard(p: Platform, q: Quota) {
    q.devType != Invalid && !(q.devType == VxFS && p.solarisVxfs) && !(q.devType == AFS && p.afsQuota)
  }

  /** `sync()`: flush the quota information of the object's file system. */
  function Sync(p: Platform, q: Quota, env: Env): (o: Outcome<FsQuotaError>)
    requires Wellformed(q)
    ensures q.devType == Invalid ==> o == Failed(Uninitialized())
    ensures SyncStandard(p, q) && p.api == NetBsdLibquota ==> o == Done
    ensures q.devType == AFS && p.afsQuota && env.afsReady ==>
      (o.Done? <==> env.sys(SysCall(AfsCall, GetQuota, q.qcarg.value, 0, UserQuota)).Ok?)
    ensures o.Failed? && q.devType == AFS && p.afsQuota ==> o.error.errnum == EINVAL
    ensures q.devType == AFS && p.afsQuota ==>
      o == if !env.afsReady then Failed(QuotaCtlException(AFS, EINVAL, Some("AFS setup via afc_check failed")))
           else if env.sys(SysCall(AfsCall, GetQuota, q.qcarg.value, 0, UserQuota)).Err? then Failed(QuotaCtlException(AFS, EINVAL, None))
           else Done
    ensures SyncStandard(p, q) && p.api == QuotaIoctl && env.openErr.None?
            && env.sys(SyncCall(StandardCall(QuotaIoctl), q.qcarg.value)).Err? ==>
      o.Failed? && o.error.errnum != ESRCH
    ensures q.devType == VxFS && p.solarisVxfs ==> o == Check(q, env.sys(SyncCall(VxfsCall, q.qcarg.value)))
    ensures SyncStandard(p, q) && p.api == QuotaIoctl ==>
      o == if env.openErr.Some? then Failed(OsException(env.openErr.value, "opening device"))
           else match env.sys(SyncCall(StandardCall(QuotaIoctl), q.qcarg.value))
                case Ok(_) => Done
                case Err(e) => Failed(QuotaCtlException(q.devType, if e == ESRCH then EINVAL else e, None))
    ensures SyncStandard(p, q) && p.api == LinuxQuotactl ==>
      o == Check(q, env.sys(SyncCall(if q.devType == XFS && p.sgiXfs then XfsCall else StandardCall(LinuxQuotactl), q.qcarg.value)))
    ensures SyncStandard(p, q) && p.api == QuotactlV2 ==>
      o == if p.aix && env.statErr.Some? then Failed(OsException(env.statErr.value, "accessing device"))
           else Check(q, env.sys(SyncCall(StandardCall(QuotactlV2), q.qcarg.value)))
    ensures SyncStandard(p, q) && p.api == QuotactlV1 ==>
      o == if q.devType == XFS && p.sgiXfs then XfsSync(q, env.sys(SyncCall(XfsCall, q.qcarg.value)), env.qstatFlags)
           else Check(q, env.sys(SyncCall(StandardCall(QuotactlV1), q.qcarg.value)))
  {
    if q.devType == Invalid then Failed(Uninitialized())
    else
      var qcarg := q.qcarg.value;
      if q.devType == VxFS && p.solarisVxfs then Check(q, env.sys(SyncCall(VxfsCall, qcarg)))
      else if q.devType == AFS && p.afsQuota then
        if !env.afsReady then Failed(QuotaCtlException(AFS, EINVAL, Some("AFS setup via afc_check failed")))
        else if env.sys(SysCall(AfsCall, GetQuota, qcarg, 0, UserQuota)).Err? then Failed(QuotaCtlException(AFS, EINVAL, None))
        else Done
      else match p.api
        case NetBsdLibquota => Done
        case QuotaIoctl =>
          if env.openErr.Some? then Failed(OsException(env.openErr.value, "opening device"))
          else
            (match env.sys(SyncCall(StandardCall(QuotaIoctl), qcarg))
             case Ok(_) => Done
             case Err(e) => Failed(QuotaCtlException(q.devType, if e == ESRCH then EINVAL else e, None)))
        case LinuxQuotactl =>
          if q.devType == XFS && p.sgiXfs then Check(q, env.sys(SyncCall(XfsCall, qcarg)))
          else Check(q, env.sys(SyncCall(StandardCall(LinuxQuotactl), qcarg)))
        case QuotactlV2 =>
          if p.aix && env.statErr.Some? then Failed(OsException(env.statErr.value, "accessing device"))
          else Check(q, env.sys(SyncCall(StandardCall(QuotactlV2), qcarg)))
        case QuotactlV1 =>
          if q.devType == XFS && p.sgiXfs then XfsSync(q, env.sys(SyncCall(XfsCall, qcarg)), env.qstatFlags)
          else Check(q, env.sys(SyncCall(StandardCall(QuotactlV1), qcarg)))
  }

  /** How `sync` as written ends: with its outcome, or by running off the
      end of the function (an undefined return value) with whatever
      exception was set on the way. */
  datatype SyncReturn = Returned(outcome: Outcome<FsQuotaError>) | FallsOffEnd(raised: Option<FsQuotaError>)

  /** The value `sync` leaves in RETVAL as written, branch by branch in
      the order of the code. It differs from `Sync` only in the XFS
      emulation of the old quotactl interface. */
  function SyncRetvalAsWritten(p: Platform, q: Quota, env: Env): (o: Outcome<FsQuotaError>)
    requires Wellformed(q)
    ensures q.devType == Invalid ==> o == Failed(Uninitialized())
    ensures SyncStandard(p, q) && p.api == QuotactlV1 && q.devType == XFS && p.sgiXfs ==>
      o == XfsSyncAsWritten(q, env.sys(SyncCall(XfsCall, q.qcarg.value)), env.qstatFlags)
  {
    if q.devType == Invalid then Failed(Uninitialized())
    else
      var qcarg := q.qcarg.value;
      if q.devType == VxFS && p.solarisVxfs then Check(q, env.sys(SyncCall(VxfsCall, qcarg)))
      else if q.devType == AFS && p.afsQuota then
        if !env.afsReady then Failed(QuotaCtlException(AFS, EINVAL, Some("AFS setup via afc_check failed")))
        else if env.sys(SysCall(AfsCall, GetQuota, qcarg, 0, UserQuota)).Err? then Failed(QuotaCtlException(AFS, EINVAL, None))
        else Done
      else match p.api
        case NetBsdLibquota => Done
        case QuotaIoctl =>
          if env.openErr.Some? then Failed(OsException(env.openErr.value, "opening device"))
          else
            (match env.sys(SyncCall(StandardCall(QuotaIoctl), qcarg))
             case Ok(_) => Done
             case Err(e) => Failed(QuotaCtlException(q.devType, if e == ESRCH then EINVAL else e, None)))
        case LinuxQuotactl =>
          Check(q, env.sys(SyncCall(if q.devType == XFS && p.sgiXfs then XfsCall else StandardCall(LinuxQuotactl), qcarg)))
        case QuotactlV2 =>
          if p.aix && env.statErr.Some? then Failed(OsException(env.statErr.value, "accessing device"))
          else Check(q, env.sys(SyncCall(StandardCall(QuotactlV2), qcarg)))
        case QuotactlV1 =>
          if q.devType == XFS && p.sgiXfs then XfsSyncAsWritten(q, env.sys(SyncCall(XfsCall, qcarg)), env.qstatFlags)
          else Check(q, env.sys(SyncCall(StandardCall(QuotactlV1), qcarg)))
  }

  /** `sync` as written. On a NetBSD build nothing but a comment stands
      between the last `else` and `return RETVAL;`, so the return becomes
      that `else`'s body: the uninitialised, VxFS and AFS branches set their
      exception (or none) and then run off the end. Every other path
      returns RETVAL. */
  function SyncAsWritten(p: Platform, q: Quota, env: Env): (r: SyncReturn)
    requires Wellformed(q)
    ensures p.api == NetBsdLibquota ==> (r.FallsOffEnd? <==> !SyncStandard(p, q))
    ensures p.api != NetBsdLibquota ==> r.Returned?
    ensures r.Returned? ==> r.outcome == SyncRetvalAsWritten(p, q, env)
    ensures r.FallsOffEnd? ==>
      r.raised == if SyncRetvalAsWritten(p, q, env).Failed? then Some(SyncRetvalAsWritten(p, q, env).error) else None
  {
    var o := SyncRetvalAsWritten(p, q, env);
    if p.api == NetBsdLibquota && !SyncStandard(p, q) then FallsOffEnd(if o.Failed? then Some(o.error) else None)
    else Returned(o)
  }

  /** On NetBSD, `sync` of an uninitialised object sets the exception and
      then returns no defined value. */
  lemma SyncAsWrittenFallsOffEnd(p: Platform, env: Env)
    requires p.api == NetBsdLibquota
    ensures SyncAsWritten(p, Quota(None, None, None, Invalid, DefaultRpcOpt()), env) == FallsOffEnd(Some(Uninitialized()))
  {
  }

  /** Where the code returns, the corrected `sync` returns the same outcome
      except in the XFS emulation of the old quotactl interface, and there
      it agrees whenever it succeeds. Where the code runs off the end, the
      corrected `sync` fails exactly with the exception that was set. */
  lemma SyncAsWrittenAgrees(p: Platform, q: Quota, env: Env)
    requires Wellformed(q)
    ensures SyncAsWritten(p, q, env).Returned? && !(p.api == QuotactlV1 && q.devType == XFS && p.sgiXfs) ==>
      SyncAsWritten(p, q, env).outcome == Sync(p, q, env)
    ensures SyncAsWritten(p, q, env).Returned? && Sync(p, q, env).Done? ==> SyncAsWritten(p, q, env).outcome == Done
    ensures SyncAsWritten(p, q, env).FallsOffEnd? ==>
      SyncAsWritten(p, q, env).raised == if Sync(p, q, env).Failed? then Some(Sync(p, q, env).error) else None
  {
  }

  /** On the old quotactl interface, an XFS file system whose Q_GETQSTAT
      succeeds with user quota neither accounted nor enforced is synced
      "successfully" as written, and refused with ENOENT by the corrected
      `sync`. */
  lemma SyncAsWrittenPassesXfsWithoutUserQuota(p: Platform, q: Quota, env: Env)
    requires Wellformed(q) && q.devType == XFS && p.sgiXfs && p.api == QuotactlV1
    requires env.sys(SyncCall(XfsCall, q.qcarg.value)).Ok? && env.qstatFlags == 0
    ensures SyncAsWritten(p, q, env) == Returned(Done)
    ensures Sync(p, q, env) == Failed(QuotaCtlException(XFS, ENOENT, None))
  {
  }

  /** All three methods refuse an uninitialised object with the same error;
      `sync` as written does so only outside NetBSD builds. */
  lemma UninitializedRefused(p: Platform, q: Quota, uid: int, kind: int, env: Env)
    requires Wellformed(q) && q.devType == Invalid
    ensures Query(p, q, uid, kind, env) == Raised(FsQuotaError(EINVAL, Literal(UninitializedText)))
    ensures SetQlim(p, q, uid, 0, 0, 0, 0, 0, kind, env).outcome == Failed(FsQuotaError(EINVAL, Literal(UninitializedText)))
    ensures Sync(p, q, env) == Failed(FsQuotaError(EINVAL, Literal(UninitializedText)))
    ensures SyncAsWritten(p, q, env) ==
      if p.api == NetBsdLibquota then FallsOffEnd(Some(Uninitialized())) else Returned(Failed(Uninitialized()))
  {
  }
}

=== FILE: errors.dfy ===
/** The exceptions of the quota module: errno values and the message that
    `FsQuota_QuotaCtlException` and `FsQuota_OsException` attach. */
module Errors {
  import opened Wrappers
  import opened QuotaTypes

  // errno values, in Linux numbering
  const EPERM := 1
  const ENOENT := 2
  const ESRCH := 3
  const EACCES := 13
  const ENODEV := 19
  const EINVAL := 22
  const ENOTTY := 25
  const ENAMETOOLONG := 36
  const ENOSYS := 38
  const ECOMM := 70
  const EUSERS := 87

  /** The text of an exception. */
  datatype ErrorText =
    | Literal(s: string)                      // a fixed message
    | StrError(errnum: int)                   // strerror(errnum)
    | Described(desc: string, errnum: int)    // "%s: %s" of desc and strerror(errnum)
    | RpcStatusText(stat: int)                // clnt_sperrno(stat)

  /** FsQuota.error: the pair (errno, message). */
  datatype FsQuotaError = FsQuotaError(errnum: int, text: ErrorText)

  /** The messages `FsQuota_QuotaCtlException` knows by errno. */
  const QuotaCtlMessages: map<int, string> := map[
    EINVAL := "No quotas on this system",
    ENOTTY := "No quotas on this system",
    ENOENT := "No quotas on this system",
    ENOSYS := "No quotas on this system",
    ENODEV := "Not a standard file system",
    EPERM := "Not privileged",
    EACCES := "Access denied",
    ESRCH := "No quota for this user",
    EUSERS := "Quota table overflow"]

  /** The message for a failed quota call that brought no message of its own:
      the table above on every backend, except that XFS reports ENOENT as a
      missing quota rather than as missing quota support; strerror otherwise. */
  function QuotaCtlText(dev: DevType, errnum: int): (t: ErrorText)
    ensures errnum in QuotaCtlMessages && !(dev == XFS && errnum == ENOENT) ==>
      t == Literal(QuotaCtlMessages[errnum])
    ensures dev == XFS && errnum == ENOENT ==> t == Literal(QuotaCtlMessages[ESRCH])
    ensures errnum !in QuotaCtlMessages ==> t == StrError(errnum)
  {
    if errnum == ENOENT && dev == XFS then Literal("No quota for this user")
    else if errnum == EINVAL || errnum == ENOTTY || errnum == ENOENT || errnum == ENOSYS then
      Literal("No quotas on this system")
    else if errnum == ENODEV then Literal("Not a standard file system")
    else if errnum == EPERM then Literal("Not privileged")
    else if errnum == EACCES then Literal("Access denied")
    else if errnum == ESRCH then Literal("No quota for this user")
    else if errnum == EUSERS then Literal("Quota table overflow")
    else StrError(errnum)
  }

  /** The exception raised for a failed quota call: a given message wins,
      otherwise the errno picks one. */
  function QuotaCtlException(dev: DevType, errnum: int, str: Option<string>): (e: FsQuotaError)
    ensures e.errnum == errnum
    ensures str.Some? ==> e.text == Literal(str.value)
    ensures str.None? ==> e.text == QuotaCtlText(dev, errnum)
    ensures str.None? && errnum !in QuotaCtlMessages ==> e.text == StrError(errnum)
    ensures str.None? && errnum in QuotaCtlMessages && !(dev == XFS && errnum == ENOENT) ==>
      e.text == Literal(QuotaCtlMessages[errnum])
  {
    FsQuotaError(errnum, if str.Some? then Literal(str.value) else QuotaCtlText(dev, errnum))
  }

  /** The exception raised for a failed operating-system call. */
  function OsException(errnum: int, desc: string): FsQuotaError {
    FsQuotaError(errnum, Described(desc, errnum))
  }

  /** How a method call ends: a value, a raised FsQuota.error, or a NULL
      return with no exception set (which Python reports as SystemError). */
  datatype QueryOutcome = Value(usage: Usage) | Raised(error: FsQuotaError) | NullWithoutException
}

=== FILE: mnttab.dfy ===
/** The mount table and its iterator: `my_setmntent`/`my_getmntent` and the
    `FsQuota.MntTab` object (`MntTab_new`, `MntTab_init`, `MntTab_IterNext`,
    `MntTab_Repr`). The system table is an input: one read of it is either
    its entries in stored order or the errno of a failed open. */
module MntTab {
  import opened Wrappers
  import opened CString
  import opened Errors
  import opened QuotaTypes

  /** One mount table entry: (mnt_fsname, mnt_dir, mnt_type, mnt_opts). */
  datatype MountEntry = MountEntry(fsname: string, dir: string, fstype: string, opts: string)

  /** The outcome of opening the system mount table. */
  type TableRead = Result<seq<MountEntry>, int>

  /** The table handle of T_STATE_MNTENT: closed, or open with the entries not yet read. */
  datatype Handle = Closed | Open(rest: seq<MountEntry>)

  /** `my_setmntent`: any previous handle is released and the table is opened afresh. */
  function SetMntEnt(read: TableRead): (h: Handle)
    ensures h.Open? <==> read.Ok?
    ensures h.Open? ==> h.rest == read.value
  {
    if read.Ok? then Open(read.value) else Closed
  }

  /** `my_getmntent`: the next entry, or nothing at the end or on a closed handle. */
  function GetMntEnt(h: Handle): (r: (Option<MountEntry>, Handle))
    ensures r.0.Some? <==> h.Open? && |h.rest| > 0
    ensures r.0.Some? ==> r.0.value == h.rest[0] && r.1 == Open(h.rest[1..])
    ensures r.0.None? ==> r.1 == h
  {
    match h
    case Closed => (None, Closed)
    case Open(rest) => if |rest| == 0 then (None, h) else (Some(rest[0]), Open(rest[1..]))
  }

  /** The state of an `FsQuota.MntTab` object. iterIndex counts the entries
      returned so far; it is -1 once the iteration has ended. */
  datatype MntTabIter = MntTabIter(handle: Handle, iterIndex: int)

  /** `MntTab_new`: open the table, or raise the errno of the failed open. */
  function New(read: TableRead): (r: Result<MntTabIter, FsQuotaError>)
    ensures r.Ok? <==> read.Ok?
    ensures r.Ok? ==> r.value == MntTabIter(Open(read.value), 0)
    ensures r.Err? ==> r.error == OsException(read.error, "setmntent")
  {
    match read
    case Ok(entries) => Ok(MntTabIter(SetMntEnt(read), 0))
    case Err(e) => Err(OsException(e, "setmntent"))
  }

  /** `MntTab_init`: re-open the table unless nothing has been read yet. */
  function Init(it: MntTabIter, read: TableRead): (r: (MntTabIter, Outcome<FsQuotaError>))
    ensures it.iterIndex == 0 ==> r == (it, Done)
    ensures it.iterIndex != 0 && read.Ok? ==> r == (MntTabIter(Open(read.value), 0), Done)
    ensures it.iterIndex != 0 && read.Err? ==>
      r == (MntTabIter(Closed, it.iterIndex), Failed(OsException(read.error, "setmntent")))
  {
    if it.iterIndex == 0 then (it, Done)
    else match read
      case Ok(_) => (MntTabIter(SetMntEnt(read), 0), Done)
      case Err(e) => (MntTabIter(SetMntEnt(read), it.iterIndex), Failed(OsException(e, "setmntent")))
  }

  /** `MntTab_IterNext`: the next entry; StopIteration (None) ends the iteration for good. */
  function Next(it: MntTabIter): (r: (Option<MountEntry>, MntTabIter))
    ensures r.0.Some? <==> it.iterIndex >= 0 && it.handle.Open? && |it.handle.rest| > 0
    ensures r.0.Some? ==> r.1.iterIndex == it.iterIndex + 1
    ensures r.0.None? ==> r.1.iterIndex == -1
  {
    if it.iterIndex >= 0 then
      var (e, h) := GetMntEnt(it.handle);
      if e.Some? then (e, MntTabIter(h, it.iterIndex + 1)) else (None, MntTabIter(h, -1))
    else (None, MntTabIter(it.handle, -1))
  }

  /** What `MntTab_Repr` shows. */
  datatype IterRepr = AtIndex(index: nat) | AtEol

  function Repr(it: MntTabIter): IterRepr {
    if it.iterIndex >= 0 then AtIndex(it.iterIndex) else AtEol
  }

  /** The answers of n successive `Next` calls and the state they leave. */
  function Drain(it: MntTabIter, n: nat): (seq<Option<MountEntry>>, MntTabIter)
    decreases n
  {
    if n == 0 then ([], it)
    else
      var (e, it') := Next(it);
      var (es, it'') := Drain(it', n - 1);
      ([e] + es, it'')
  }

  /** Every entry of t, as successful answers. */
  function Yields(t: seq<MountEntry>): (r: seq<Option<MountEntry>>)
    ensures |r| == |t|
    ensures forall i :: 0 <= i < |t| ==> r[i] == Some(t[i])
  {
    if |t| == 0 then [] else [Some(t[0])] + Yields(t[1..])
  }

  /** Reading n entries of an open table returns its first n entries in
      stored order, and counts them in iterIndex. */
  lemma {:induction false} DrainReadsInOrder(t: seq<MountEntry>, k: nat, n: nat)
    requires n <= |t|
    ensures Drain(MntTabIter(Open(t), k), n) == (Yields(t[..n]), MntTabIter(Open(t[n..]), k + n))
    decreases n
  {
    if n > 0 {
      assert Next(MntTabIter(Open(t), k)) == (Some(t[0]), MntTabIter(Open(t[1..]), k + 1));
      DrainReadsInOrder(t[1..], k + 1, n - 1);
      assert t[1..][..n - 1] == t[..n][1..];
      assert t[1..][n - 1..] == t[n..];
    }
  }

  /** A fresh iterator lists the whole table, in order, exactly once; then it
      stops, and its representation shows the end of the list. */
  lemma {:induction false} FreshIteratorListsTable(t: seq<MountEntry>)
    ensures New(Ok(t)).Ok?
    ensures Drain(New(Ok(t)).value, |t| + 1).0 == Yields(t) + [None]
    ensures Repr(Drain(New(Ok(t)).value, |t| + 1).1) == AtEol
  {
    var it := New(Ok(t)).value;
    DrainAppend(it, |t|, 1);
    DrainReadsInOrder(t, 0, |t|);
    assert t[..|t|] == t;
    assert t[|t|..] == [];
  }

  lemma {:induction false} DrainAppend(it: MntTabIter, m: nat, n: nat)
    ensures Drain(it, m + n).0 == Drain(it, m).0 + Drain(Drain(it, m).1, n).0
    ensures Drain(it, m + n).1 == Drain(Drain(it, m).1, n).1
    decreases m
  {
    if m > 0 {
      DrainAppend(Next(it).1, m - 1, n);
    }
  }

  /** Once ended, an iterator stays ended however often it is asked. */
  lemma {:induction false} EndedStaysEnded(it: MntTabIter, n: nat)
    requires it.iterIndex < 0
    ensures Drain(it, n).0 == seq(n, _ => None)
    ensures n > 0 ==> Drain(it, n).1.iterIndex == -1
    decreases n
  {
    if n > 0 {
      EndedStaysEnded(MntTabIter(it.handle, -1), n - 1);
    }
  }

  /** Re-initialising an iterator that has moved restarts it from the first entry. */
  lemma RestartReadsFromStart(it: MntTabIter, t: seq<MountEntry>)
    requires it.iterIndex != 0
    ensures Init(it, Ok(t)).0 == New(Ok(t)).value
  {
  }

  // ---------------------------------------------------------------------
  // The BSD variant (NO_MNTENT): getmntinfo() delivers an array of statfs
  // records, walked by a cursor and a count of the records left.

  /** The fields of a statfs record the module reads. */
  datatype StatFs = StatFs(mntfromname: string, mntonname: string, fstypename: string, flags: nat)

  /** T_STATE_MNTENT under NO_MNTENT: the array, the index of mntp, and mtab_size. */
  datatype BsdCursor = BsdCursor(mtab: seq<StatFs>, mntp: nat, remaining: int)

  /** The cursor never runs past the array. */
  predicate BsdValid(c: BsdCursor) {
    c.remaining >= 0 && c.mntp + c.remaining == |c.mtab|
  }

  /** `my_setmntent` under NO_MNTENT: a count of zero or less is a failure. */
  function BsdSetMntEnt(info: seq<StatFs>): (r: Option<BsdCursor>)
    ensures r.Some? <==> |info| > 0
    ensures r.Some? ==> BsdValid(r.value) && r.value.mtab == info && r.value.mntp == 0
  {
    if |info| <= 0 then None else Some(BsdCursor(info, 0, |info|))
  }

  /** The entry built from a statfs record. The options are the unsigned
      flag word printed with `%d`, which reads it as a C int. */
  function StatFsEntry(s: StatFs): MountEntry {
    MountEntry(s.mntfromname, s.mntonname, s.fstypename, DecimalString(Int32Of(s.flags)))
  }

  /** The options of a BSD entry read back to the flag word's low 32 bits
      as a C int: the word itself below 2^31, a negative number from there. */
  lemma BsdFlagsReadBack(s: StatFs)
    ensures var v := ParseDecimal(StatFsEntry(s).opts);
            && -0x8000_0000 <= v < 0x8000_0000 && (v - s.flags) % UInt32Modulus == 0
            && (s.flags < 0x8000_0000 ==> v == s.flags)
  {
    DecimalStringRoundTrip(Int32Of(s.flags));
  }

  /** A flag word with bit 31 set shows as a negative number. */
  lemma HighFlagBitPrintsNegative(s: StatFs)
    requires s.flags == 0x8000_0000
    ensures StatFsEntry(s).opts[0] == '-'
    ensures ParseDecimal(StatFsEntry(s).opts) == -0x8000_0000
  {
    DecimalStringRoundTrip(Int32Of(s.flags));
  }

  /** `my_getmntent` under NO_MNTENT: take the record at mntp, then advance
      mntp and decrement the count. */
  function BsdGetMntEnt(c: BsdCursor): (r: (Option<MountEntry>, BsdCursor))
    requires BsdValid(c)
    ensures BsdValid(r.1) && r.1.mtab == c.mtab
    ensures r.0.Some? <==> c.mntp < |c.mtab|
    ensures r.0.Some? ==> r.0.value == StatFsEntry(c.mtab[c.mntp]) && r.1.mntp == c.mntp + 1
    ensures r.0.None? ==> r.1 == c
  {
    if c.remaining != 0 then
      (Some(StatFsEntry(c.mtab[c.mntp])), BsdCursor(c.mtab, c.mntp + 1, c.remaining - 1))
    else (None, c)
  }

  /** The answers of n successive `BsdGetMntEnt` calls. */
  function BsdDrain(c: BsdCursor, n: nat): (r: (seq<Option<MountEntry>>, BsdCursor))
    requires BsdValid(c)
    ensures BsdValid(r.1)
    decreases n
  {
    if n == 0 then ([], c)
    else
      var (e, c') := BsdGetMntEnt(c);
      var (es, c'') := BsdDrain(c', n - 1);
      ([e] + es, c'')
  }

  function Entries(info: seq<StatFs>): (r: seq<MountEntry>)
    ensures |r| == |info|
    ensures forall i :: 0 <= i < |info| ==> r[i] == StatFsEntry(info[i])
  {
    if |info| == 0 then [] else [StatFsEntry(info[0])] + Entries(info[1..])
  }

  /** From index k on, the cursor yields the rest of the array in order and then stops. */
  lemma {:induction false} BsdDrainFrom(c: BsdCursor)
    requires BsdValid(c)
    ensures BsdDrain(c, c.remaining + 1).0 == Yields(Entries(c.mtab[c.mntp..])) + [None]
    decreases c.remaining
  {
    if c.remaining == 0 {
      assert c.mtab[c.mntp..] == [];
    } else {
      var (e, c') := BsdGetMntEnt(c);
      var rest := c.mtab[c.mntp..];
      assert c'.remaining + 1 == c.remaining;
      assert BsdDrain(c, c.remaining + 1).0 == [e] + BsdDrain(c', c'.remaining + 1).0;
      BsdDrainFrom(c');
      assert rest[1..] == c'.mtab[c'.mntp..];
      assert e == Some(StatFsEntry(rest[0]));
      assert Entries(rest) == [StatFsEntry(rest[0])] + Entries(rest[1..]);
      assert Yields(Entries(rest)) == [e] + Yields(Entries(rest[1..]));
    }
  }

  /** The BSD array walk presents the same table as the line-oriented one:
      every record of getmntinfo, in array order, then the end. */
  lemma BsdCursorListsArray(info: seq<StatFs>)
    requires |info| > 0
    ensures BsdSetMntEnt(info).Some?
    ensures BsdDrain(BsdSetMntEnt(info).value, |info| + 1).0 == Yields(Entries(info)) + [None]
  {
    BsdDrainFrom(BsdSetMntEnt(info).value);
    assert info[0..] == info;
  }
}

=== FILE: netbsd.dfy ===
/** The NetBSD libquota branches of `query` and `setqlim`: a quota handle
    over a store of (id type, id, object type) keys. quota_open, quota_get
    and quota_put are modelled by the store's contents and the keys it refuses. */
module NetBsdQuota {
  import opened Wrappers
  import opened QuotaTypes
  import opened Errors

  /** QUOTA_DEFAULTID: the key of the file system's default limits. */
  const QUOTA_DEFAULTID := -1

  /** The grace period a reset (`timelimflag` set) installs. */
  const SevenDays := 7 * 24 * 60 * 60

  datatype ObjType = Blocks | Files

  /** struct quotakey. */
  datatype QuotaKey = QuotaKey(idType: IdType, id: int, objType: ObjType)

  /** struct quotaval. */
  datatype QuotaVal = QuotaVal(hardlimit: nat, softlimit: nat, usage: nat, expiretime: int, grace: int)

  /** The quota file system behind a handle: whether quota_open fails (and
      with which errno), the entries quota_get finds, the errno of a failed
      get, and the keys quota_put refuses with its errno. */
  datatype Store = Store(
    openErr: Option<int>,
    entries: map<QuotaKey, QuotaVal>,
    getErrno: int,
    rejects: set<QuotaKey>,
    putErrno: int)

  /** quota_get. */
  function Get(s: Store, k: QuotaKey): (r: Result<QuotaVal, int>)
    ensures r.Ok? <==> k in s.entries
    ensures r.Ok? ==> r.value == s.entries[k]
    ensures r.Err? ==> r.error == s.getErrno
  {
    if k in s.entries then Ok(s.entries[k]) else Err(s.getErrno)
  }

  /** quota_put: stores the value under the key unless the key is refused. */
  function Put(s: Store, k: QuotaKey, v: QuotaVal): (r: Result<Store, int>)
    ensures r.Ok? <==> k !in s.rejects
    ensures r.Ok? ==> Get(r.value, k) == Ok(v)
    ensures r.Ok? ==> forall k' :: k' != k ==> Get(r.value, k') == Get(s, k')
    ensures r.Ok? ==> r.value.rejects == s.rejects && r.value.openErr == s.openErr
    ensures r.Err? ==> r.error == s.putErrno
  {
    if k in s.rejects then Err(s.putErrno) else Ok(s.(entries := s.entries[k := v]))
  }

  function DefaultKey(k: QuotaKey): QuotaKey {
    k.(id := QUOTA_DEFAULTID)
  }

  /** The first present candidate. */
  function FirstPresent(candidates: seq<Option<int>>, fallback: int): (r: int)
    ensures (exists i :: 0 <= i < |candidates| && candidates[i].Some?) ==>
      exists i :: 0 <= i < |candidates| && candidates[i] == Some(r) &&
        forall j :: 0 <= j < i ==> candidates[j].None?
    ensures (forall i :: 0 <= i < |candidates| ==> candidates[i].None?) ==> r == fallback
  {
    if |candidates| == 0 then fallback
    else if candidates[0].Some? then candidates[0].value
    else
      var r := FirstPresent(candidates[1..], fallback);
      assert forall i :: 1 <= i < |candidates| ==> candidates[i] == candidates[1..][i - 1];
      r
  }

  function GraceOf(s: Store, k: QuotaKey): Option<int> {
    if k in s.entries then Some(s.entries[k].grace) else None
  }

  /** The documented choice of grace period: seven days on a reset, else the
      id's current setting, else the default setting, else 0. */
  function IntendedGrace(s: Store, k: QuotaKey, timelimflag: int): int {
    FirstPresent([if timelimflag != 0 then Some(SevenDays) else None, GraceOf(s, k), GraceOf(s, DefaultKey(k))], 0)
  }

  /** One grace step of `setqlim`, as written: the grace period, and the key
      the following quota_put uses. The key is switched to the default id
      for the second lookup and switched back only when that lookup succeeds. */
  function GraceStep(s: Store, k: QuotaKey, timelimflag: int): (r: (int, QuotaKey))
    ensures r.0 == IntendedGrace(s, k, timelimflag)
    ensures r.1 == k || (r.1 == DefaultKey(k) && timelimflag == 0 && k !in s.entries && DefaultKey(k) !in s.entries)
    ensures timelimflag == 0 && k !in s.entries && DefaultKey(k) !in s.entries ==> r.1 == DefaultKey(k)
  {
    if timelimflag != 0 then (SevenDays, k)
    else match Get(s, k)
      case Ok(v) =>
        var c := [None, GraceOf(s, k), GraceOf(s, DefaultKey(k))];
        assert c[1..][0] == Some(v.grace);
        (v.grace, k)
      case Err(_) =>
        match Get(s, DefaultKey(k))
        case Ok(v) =>
          var c := [None, GraceOf(s, k), GraceOf(s, DefaultKey(k))];
          assert c[0].None? && c[1..][0].None? && c[1..][1..][0] == Some(v.grace);
          assert FirstPresent(c, 0) == FirstPresent(c[1..], 0) == FirstPresent(c[1..][1..], 0) == v.grace;
          (v.grace, k)
        case Err(_) => (0, DefaultKey(k))
  }

  /** The value `setqlim` stores: the new limits, no usage, no expiry. */
  function LimitVal(hard: nat, soft: nat, grace: int): QuotaVal {
    QuotaVal(hard, soft, 0, 0, grace)
  }

  /** The two keys and values `setqlim` writes, in order. */
  function Writes(s: Store, id: int, kind: int, bs: nat, bh: nat, fs: nat, fh: nat, timelimflag: int): (w: (QuotaKey, QuotaVal, QuotaKey, QuotaVal))
    ensures w.0.objType == Blocks && w.2.objType == Files
    ensures w.0.idType == w.2.idType == KindIdType(kind)
    ensures w.1.hardlimit == bh && w.1.softlimit == bs && w.1.usage == 0 && w.1.expiretime == 0
    ensures w.3.hardlimit == fh && w.3.softlimit == fs && w.3.usage == 0 && w.3.expiretime == 0
  {
    var (gb, kb) := GraceStep(s, QuotaKey(KindIdType(kind), id, Blocks), timelimflag);
    // the files lookup sees the store after the blocks put
    var s1 := if kb !in s.rejects then s.(entries := s.entries[kb := LimitVal(bh, bs, gb)]) else s;
    var (gf, kf) := GraceStep(s1, kb.(objType := Files), timelimflag);
    (kb, LimitVal(bh, bs, gb), kf, LimitVal(fh, fs, gf))
  }

  /** The NetBSD branch of `setqlim`: open, set the block limits, then the
      file limits; the first failure raises with its errno. */
  function SetLimits(dev: DevType, s: Store, id: int, kind: int, bs: nat, bh: nat, fs: nat, fh: nat, timelimflag: int): (r: (Store, Outcome<FsQuotaError>))
    ensures s.openErr.Some? ==> r == (s, Failed(QuotaCtlException(dev, s.openErr.value, None)))
    ensures s.openErr.None? ==>
      var w := Writes(s, id, kind, bs, bh, fs, fh, timelimflag);
      && (r.1.Done? <==> w.0 !in s.rejects && w.2 !in s.rejects)
      && (r.1.Failed? ==> r.1.error == QuotaCtlException(dev, s.putErrno, None))
      && (w.0 !in s.rejects ==> Get(r.0, w.0) == Ok(w.1))
      && (r.1.Done? ==> Get(r.0, w.2) == Ok(w.3))
      && (forall k :: k != w.0 && k != w.2 ==> Get(r.0, k) == Get(s, k))
  {
    if s.openErr.Some? then (s, Failed(QuotaCtlException(dev, s.openErr.value, None)))
    else
      var w := Writes(s, id, kind, bs, bh, fs, fh, timelimflag);
      match Put(s, w.0, w.1)
      case Err(e) => (s, Failed(QuotaCtlException(dev, e, None)))
      case Ok(s1) =>
        match Put(s1, w.2, w.3)
        case Err(e) => (s1, Failed(QuotaCtlException(dev, e, None)))
        case Ok(s2) => (s2, Done)
  }

  /** A reset writes both limits under the caller's id with a seven-day grace period. */
  lemma ResetWritesSevenDays(s: Store, id: int, kind: int, bs: nat, bh: nat, fs: nat, fh: nat, timelimflag: int)
    requires timelimflag != 0
    ensures var w := Writes(s, id, kind, bs, bh, fs, fh, timelimflag);
            w.0 == QuotaKey(KindIdType(kind), id, Blocks) && w.2 == QuotaKey(KindIdType(kind), id, Files)
            && w.1.grace == SevenDays && w.3.grace == SevenDays
  {
  }

  /** Without a reset, an id that already has entries keeps its grace periods. */
  lemma ExistingGraceKept(s: Store, id: int, kind: int, bs: nat, bh: nat, fs: nat, fh: nat)
    requires QuotaKey(KindIdType(kind), id, Blocks) in s.entries
    requires QuotaKey(KindIdType(kind), id, Files) in s.entries
    ensures var w := Writes(s, id, kind, bs, bh, fs, fh, 0);
            w.0 == QuotaKey(KindIdType(kind), id, Blocks) && w.2 == QuotaKey(KindIdType(kind), id, Files)
            && w.1.grace == s.entries[QuotaKey(KindIdType(kind), id, Blocks)].grace
            && w.3.grace == s.entries[QuotaKey(KindIdType(kind), id, Files)].grace
  {
  }

  /** As written: when neither the id nor the default has a block entry and
      no reset is asked for, the block limits go to the default id's entry
      and the id's own entries are left as they were. */
  lemma {:induction false} FallToZeroWritesDefaultId(s: Store, id: int, kind: int, bs: nat, bh: nat, fs: nat, fh: nat)
    requires s.openErr.None? && id != QUOTA_DEFAULTID
    requires QuotaKey(KindIdType(kind), id, Blocks) !in s.entries
    requires QuotaKey(KindIdType(kind), QUOTA_DEFAULTID, Blocks) !in s.entries
    requires QuotaKey(KindIdType(kind), QUOTA_DEFAULTID, Blocks) !in s.rejects
    ensures var r := SetLimits(Regular, s, id, kind, bs, bh, fs, fh, 0);
            && Get(r.0, QuotaKey(KindIdType(kind), QUOTA_DEFAULTID, Blocks)) == Ok(QuotaVal(bh, bs, 0, 0, 0))
            && Get(r.0, QuotaKey(KindIdType(kind), id, Blocks)).Err?
            && Get(r.0, QuotaKey(KindIdType(kind), id, Files)) == Get(s, QuotaKey(KindIdType(kind), id, Files))
  {
    var w := Writes(s, id, kind, bs, bh, fs, fh, 0);
    var kb := QuotaKey(KindIdType(kind), id, Blocks);
    assert w.0 == DefaultKey(kb);
    assert w.2.id == QUOTA_DEFAULTID;
    assert w.0 != w.2;
  }

  /** The NetBSD branch of `query` as written: when quota_open or a
      quota_get fails, NULL is returned without an exception. */
  function QueryAsWritten(dev: DevType, s: Store, id: int, kind: int): (r: QueryOutcome)
    ensures r != NullWithoutException ==> r == Query(dev, s, id, kind)
    ensures r == NullWithoutException <==> Query(dev, s, id, kind).Raised?
  {
    if s.openErr.Some? then NullWithoutException
    else
      var kb := QuotaKey(KindIdType(kind), id, Blocks);
      match (Get(s, kb), Get(s, kb.(objType := Files)))
      case (Ok(vb), Ok(vf)) =>
        Value(Usage(vb.usage, vb.softlimit, vb.hardlimit, vb.expiretime, vf.usage, vf.softlimit, vf.hardlimit, vf.expiretime))
      case _ => NullWithoutException
  }

  /** A store whose open fails: the as-written query raises nothing. */
  lemma QueryAsWrittenRaisesNothing()
    ensures QueryAsWritten(Regular, Store(Some(2), map[], 2, {}, 1), 1000, 0) == NullWithoutException
  {
  }

  /** The NetBSD branch of `query` with the failures raised as quotactl errors. */
  function Query(dev: DevType, s: Store, id: int, kind: int): (r: QueryOutcome)
    ensures r != NullWithoutException
    ensures s.openErr.Some? ==> r == Raised(QuotaCtlException(dev, s.openErr.value, None))
    ensures r.Value? <==> s.openErr.None? && QuotaKey(KindIdType(kind), id, Blocks) in s.entries
                          && QuotaKey(KindIdType(kind), id, Files) in s.entries
    ensures r.Value? ==>
      var vb := s.entries[QuotaKey(KindIdType(kind), id, Blocks)];
      var vf := s.entries[QuotaKey(KindIdType(kind), id, Files)];
      && r.usage.bcur == vb.usage && r.usage.bsoft == vb.softlimit && r.usage.bhard == vb.hardlimit
      && r.usage.btime == vb.expiretime
      && r.usage.fcur == vf.usage && r.usage.fsoft == vf.softlimit && r.usage.fhard == vf.hardlimit
      && r.usage.ftime == vf.expiretime
    ensures s.openErr.None? && r.Raised? ==> r.error == QuotaCtlException(dev, s.getErrno, None)
  {
    if s.openErr.Some? then Raised(QuotaCtlException(dev, s.openErr.value, None))
    else
      var kb := QuotaKey(KindIdType(kind), id, Blocks);
      match (Get(s, kb), Get(s, kb.(objType := Files)))
      case (Ok(vb), Ok(vf)) =>
        Value(Usage(vb.usage, vb.softlimit, vb.hardlimit, vb.expiretime, vf.usage, vf.softlimit, vf.hardlimit, vf.expiretime))
      case (Err(e), _) => Raised(QuotaCtlException(dev, e, None))
      case (_, Err(e)) => Raised(QuotaCtlException(dev, e, None))
  }

  /** A reset followed by a query reads back the limits just set, with no
      usage and no expiry. */
  lemma {:induction false} ResetThenQuery(dev: DevType, s: Store, id: int, kind: int, bs: nat, bh: nat, fs: nat, fh: nat, timelimflag: int)
    requires timelimflag != 0
    requires SetLimits(dev, s, id, kind, bs, bh, fs, fh, timelimflag).1.Done?
    ensures Query(dev, SetLimits(dev, s, id, kind, bs, bh, fs, fh, timelimflag).0, id, kind) ==
            Value(Usage(0, bs, bh, 0, 0, fs, fh, 0))
  {
    ResetWritesSevenDays(s, id, kind, bs, bh, fs, fh, timelimflag);
    var r := SetLimits(dev, s, id, kind, bs, bh, fs, fh, timelimflag);
    var w := Writes(s, id, kind, bs, bh, fs, fh, timelimflag);
    assert w.0 != w.2;
    assert Get(r.0, w.0) == Ok(w.1);
    assert Get(r.0, w.2) == Ok(w.3);
  }
}

=== FILE: nfs.dfy ===
/** `getnfsquota`: the remote quota query over the ONC RPC `rquota` program
    and the normalisation of its answer. The record fields follow
    `xdr_rquota`. */
module Nfs {
  import opened Wrappers
  import opened QuotaTypes
  import opened Errors
  import opened RpcOptions

  // rquota program, versions and procedure
  const RQUOTAPROG := 100011
  const RQUOTAVERS := 1
  const EXT_RQUOTAVERS := 2
  const RQUOTAPROC_GETQUOTA := 1

  // gqr_status values
  const Q_OK := 1
  const Q_NOQUOTA := 2
  const Q_EPERM := 3

  // gqa_type values of the extended arguments
  const GQA_TYPE_USR := 0
  const GQA_TYPE_GRP := 1

  /** Ten years of seconds: the bound between relative and absolute timers. */
  const TenYears := 10 * 365 * 24 * 60 * 60

  /** struct rquota, in the order `xdr_rquota` reads it: every field after
      the first two is a `u_int`. */
  datatype Rquota = Rquota(
    bsize: int,                // xdr_int: may be negative on the wire
    active: bool,
    bhardlimit: UInt32, bsoftlimit: UInt32, curblocks: UInt32,
    fhardlimit: UInt32, fsoftlimit: UInt32, curfiles: UInt32,
    btimeleft: UInt32, ftimeleft: UInt32)

  /** struct getquota_rslt: the status, and the record read only when it is Q_OK. */
  datatype GetQuotaRslt = GetQuotaRslt(status: int, rquota: Rquota)

  /** The argument record of one call. */
  datatype RquotaArgs =
    | ExtArgs(pathp: string, id: int, gqaType: int)     // ext_getquota_args, version 2
    | LegacyArgs(pathp: string, uid: int)                // getquota_args, version 1

  /** One callaurpc invocation: where it went, how, and with what. */
  datatype RquotaCall = RquotaCall(host: string, version: int, setup: ClientSetup, args: RquotaArgs)

  /** struct quota_xs_nfs_rslt. */
  datatype NfsQuota = NfsQuota(
    bhard: nat, bsoft: nat, bcur: nat, btime: int,
    fhard: nat, fsoft: nat, fcur: nat, ftime: int)

  /** Why the query failed: the RPC text of a failed call, or an errno for a refusing status. */
  datatype NfsError = RpcFailed(text: ErrorText) | StatusErrno(errnum: int)

  datatype NfsOutcome = NfsOutcome(calls: seq<RquotaCall>, result: Result<NfsQuota, NfsError>)

  // ---------------------------------------------------------------------
  // Block-size scaling

  /** C's `/` on int: truncates toward zero. */
  function CDiv(a: int, b: int): int
    requires b != 0
  {
    var q := (if a < 0 then -a else a) / (if b < 0 then -b else b);
    if (a < 0) != (b < 0) then -q else q
  }

  /** The factor qb_fac as lines 246-262 compute it: the quotient for a
      larger size, the divisor for a smaller non-zero one, 1 for zero.
      A negative size passes the `!= 0` test. */
  function BlockFactorAsWritten(bsize: int, devQbSize: PositiveInt): int {
    if bsize >= devQbSize then bsize / devQbSize
    else if bsize != 0 then CDiv(devQbSize, bsize)
    else 1
  }

  /** A server reporting a block size of -2048 makes the divisor 0 (with
      DEV_QBSIZE 1024): the divisions at lines 265-267 divide by zero. */
  lemma NegativeBlockSizeDividesByZero()
    ensures var bsize := -2048; bsize < 1024 && bsize != 0 && BlockFactorAsWritten(bsize, 1024) == 0
  {
  }

  /** The evidently intended conversion of a block count in units of bsize
      bytes into units of DEV_QBSIZE: multiply by the ratio for a larger
      block, divide by it for a smaller one, and leave the count alone when
      the size is not positive. */
  function ScaleBlocks(v: nat, bsize: int, devQbSize: PositiveInt): (r: nat)
    ensures bsize >= devQbSize ==> r == v * (bsize / devQbSize)
    ensures 0 < bsize < devQbSize ==>
      r * (devQbSize / bsize) <= v < (r + 1) * (devQbSize / bsize)
    ensures bsize <= 0 ==> r == v
    ensures bsize == devQbSize ==> r == v
  {
    if bsize >= devQbSize then
      MultiplyBounds(v, bsize, devQbSize);
      v * (bsize / devQbSize)
    else if bsize > 0 then
      SmallFactorPositive(bsize, devQbSize);
      DivideBlocks(v, devQbSize / bsize)
    else v
  }

  /** The multiplying branch of ScaleBlocks yields a count, and the count itself for equal sizes. */
  lemma MultiplyBounds(v: nat, bsize: int, devQbSize: PositiveInt)
    requires bsize >= devQbSize
    ensures v * (bsize / devQbSize) >= 0
    ensures bsize == devQbSize ==> v * (bsize / devQbSize) == v
  {
    if bsize == devQbSize {
      assert bsize / devQbSize == 1;
    }
  }

  /** The dividing branch of ScaleBlocks has a positive divisor. */
  lemma SmallFactorPositive(bsize: int, devQbSize: PositiveInt)
    requires 0 < bsize < devQbSize
    ensures devQbSize / bsize >= 1
  {
  }

  /** A count of f-fold smaller units, rounded down. */
  function DivideBlocks(v: nat, f: nat): (r: nat)
    requires f > 0
    ensures r * f <= v < (r + 1) * f
  {
    var q := v / f;
    DivBounds(v, f);
    assert q * f <= v;
    assert v < (q + 1) * f;
    q
  }

  /** The bounds of Euclidean division. */
  lemma DivBounds(v: nat, f: nat)
    requires f > 0
    ensures (v / f) * f <= v < (v / f + 1) * f
  {
  }

  /** a / d is the unique q with q * d <= a < (q + 1) * d. */
  lemma {:induction false} DivUnique(a: int, d: int, q: int)
    requires d > 0 && q * d <= a < (q + 1) * d
    ensures a / d == q
  {
    var r := a / d;
    assert r * d <= a < (r + 1) * d by { assert a == r * d + a % d; }
    if r < q {
      MulMono(r + 1, q, d);
      assert false;
    } else if q < r {
      MulMono(q + 1, r, d);
      assert false;
    }
  }

  /** The inverse of ScaleBlocks for a block size that is a multiple of DEV_QBSIZE. */
  function UnscaleBlocks(r: nat, bsize: int, devQbSize: PositiveInt): nat
    requires bsize >= devQbSize
  {
    r / (bsize / devQbSize)
  }

  /** For a block size at least DEV_QBSIZE, the conversion loses nothing:
      converting back restores the server's count. */
  lemma {:induction false} ScaleBlocksRoundTrip(v: nat, bsize: int, devQbSize: PositiveInt)
    requires bsize >= devQbSize
    ensures UnscaleBlocks(ScaleBlocks(v, bsize, devQbSize), bsize, devQbSize) == v
  {
    var f := bsize / devQbSize;
    assert f >= 1;
    assert v * f <= v * f < (v + 1) * f by { assert (v + 1) * f == v * f + f; }
    DivUnique(v * f, f, v);
  }

  /** A block size that is a multiple of DEV_QBSIZE: the result is the byte
      count in DEV_QBSIZE units, exactly. */
  lemma {:induction false} ScaleLargeKeepsBytes(v: nat, bsize: int, devQbSize: PositiveInt)
    requires bsize >= devQbSize && bsize % devQbSize == 0
    ensures ScaleBlocks(v, bsize, devQbSize) * devQbSize == v * bsize
  {
    var f := bsize / devQbSize;
    assert bsize == f * devQbSize by { assert bsize == f * devQbSize + bsize % devQbSize; }
    assert v * bsize == (v * f) * devQbSize by { MulAssoc(v, f, devQbSize); }
  }

  /** A block size that divides DEV_QBSIZE: the result is the byte count in
      DEV_QBSIZE units, rounded down. */
  lemma {:induction false} ScaleSmallKeepsBytes(v: nat, bsize: int, devQbSize: PositiveInt)
    requires 0 < bsize < devQbSize && devQbSize % bsize == 0
    ensures ScaleBlocks(v, bsize, devQbSize) == (v * bsize) / devQbSize
  {
    var f := devQbSize / bsize;
    assert devQbSize == f * bsize by { assert devQbSize == f * bsize + devQbSize % bsize; }
    var q := ScaleBlocks(v, bsize, devQbSize);
    assert q * f <= v < (q + 1) * f;
    MulMono(q * f, v, bsize);
    MulMonoStrict(v, (q + 1) * f, bsize);
    MulAssoc(q, f, bsize);
    MulAssoc(q + 1, f, bsize);
    assert q * devQbSize <= v * bsize < (q + 1) * devQbSize;
    DivUnique(v * bsize, devQbSize, q);
  }

  lemma MulAssoc(a: int, b: int, c: int)
    ensures (a * b) * c == a * (b * c)
  {
  }

  lemma MulMono(a: int, b: int, c: nat)
    requires a <= b
    ensures a * c <= b * c
  {
  }

  lemma MulMonoStrict(a: int, b: int, c: int)
    requires a < b && c > 0
    ensures a * c < b * c
  {
  }

  /** Block sizes in the ratios 1, 2, 4, 8 to DEV_QBSIZE come back exactly. */
  lemma SmallRatiosRoundTrip(v: nat, devQbSize: PositiveInt)
    ensures forall k :: k in {1, 2, 4, 8} ==>
      UnscaleBlocks(ScaleBlocks(v, k * devQbSize, devQbSize), k * devQbSize, devQbSize) == v
  {
    forall k | k in {1, 2, 4, 8}
      ensures UnscaleBlocks(ScaleBlocks(v, k * devQbSize, devQbSize), k * devQbSize, devQbSize) == v
    {
      ScaleBlocksRoundTrip(v, k * devQbSize, devQbSize);
    }
  }

  // ---------------------------------------------------------------------
  // Grace timers

  /** A reported timer as an absolute expiry. The timer is a `u_int`, so
      its sum with ten years wraps modulo 2^32 before it is compared with
      the clock (a 64-bit `time_t`). 0 stays 0 (no timer); a sum before now
      makes the timer a delay from now; anything else is already an
      absolute time. */
  function GraceTime(t: UInt32, now: int): (r: int)
    ensures r == 0 <==> t == 0
    ensures r >= t
    ensures r != t ==> now > 0 && r - now == t
    ensures r != t <==> t != 0 && (t + TenYears) % UInt32Modulus < now
  {
    if t == 0 then 0
    else if (t + TenYears) % UInt32Modulus < now then now + t
    else t
  }

  /** A delay the server reports is counted from now, as long as the
      addition does not wrap and the delay is shorter than the time since
      ten years after the epoch. */
  lemma RelativeDelayRecovered(d: UInt32, now: int)
    requires 0 < d < UInt32Modulus - TenYears
    requires d + TenYears < now
    ensures GraceTime(d, now) - now == d
  {
  }

  /** An absolute expiry the server reports (Linux rquotad) is kept when it
      lies no more than ten years before now and below the wrap. */
  lemma AbsoluteExpiryKept(e: UInt32, now: int)
    requires now - TenYears <= e < UInt32Modulus - TenYears
    ensures GraceTime(e, now) == e
  {
  }

  /** From 2^32 minus ten years on, the sum wraps below any present-day
      clock, so every such timer counts from now, even an absolute one. */
  lemma WrappedTimerCountsFromNow(t: UInt32, now: int)
    requires t >= UInt32Modulus - TenYears && now >= TenYears
    ensures GraceTime(t, now) == now + t
  {
  }

  /** An absolute expiry in the year 2096 read against a clock of 2025. */
  lemma TimerNearWrapExample()
    ensures GraceTime(4000000000, 1760000000) == 5760000000
  {
  }

  /** Examples: one hour relative to a present-day clock, no timer, and an
      expiry that is already absolute. */
  lemma GraceTimeExamples(now: int)
    requires now > TenYears + 3600
    ensures GraceTime(3600, now) == now + 3600
    ensures GraceTime(0, now) == 0
    ensures forall t: UInt32 :: now <= t < UInt32Modulus - TenYears ==> GraceTime(t, now) == t
  {
  }

  // ---------------------------------------------------------------------
  // Interpretation of the reply

  /** The normalised result of a Q_OK reply: block fields scaled (unless the
      build trusts Linux rquotad's 1k units), file fields copied, timers made absolute. */
  function Normalise(p: Platform, rq: Rquota, now: int): (q: NfsQuota)
    ensures q.fhard == rq.fhardlimit && q.fsoft == rq.fsoftlimit && q.fcur == rq.curfiles
    ensures p.linuxRquotadBug ==> q.bhard == rq.bhardlimit && q.bsoft == rq.bsoftlimit && q.bcur == rq.curblocks
    ensures !p.linuxRquotadBug ==>
      && q.bhard == ScaleBlocks(rq.bhardlimit, rq.bsize, p.devQbSize)
      && q.bsoft == ScaleBlocks(rq.bsoftlimit, rq.bsize, p.devQbSize)
      && q.bcur == ScaleBlocks(rq.curblocks, rq.bsize, p.devQbSize)
    ensures q.btime == GraceTime(rq.btimeleft, now) && q.ftime == GraceTime(rq.ftimeleft, now)
  {
    var scale := (v: nat) => if p.linuxRquotadBug then v else ScaleBlocks(v, rq.bsize, p.devQbSize);
    NfsQuota(
      scale(rq.bhardlimit), scale(rq.bsoftlimit), scale(rq.curblocks), GraceTime(rq.btimeleft, now),
      rq.fhardlimit, rq.fsoftlimit, rq.curfiles, GraceTime(rq.ftimeleft, now))
  }

  /** The switch on gqr_status. */
  function Interpret(p: Platform, rslt: GetQuotaRslt, now: int): (r: Result<NfsQuota, NfsError>)
    ensures r.Ok? <==> rslt.status == Q_OK
    ensures r.Ok? ==> r.value == Normalise(p, rslt.rquota, now)
    ensures rslt.status == Q_NOQUOTA ==> r == Err(StatusErrno(ESRCH))
    ensures rslt.status == Q_EPERM ==> r == Err(StatusErrno(EPERM))
    ensures rslt.status !in {Q_OK, Q_NOQUOTA, Q_EPERM} ==> r == Err(StatusErrno(EINVAL))
  {
    if rslt.status == Q_OK then Ok(Normalise(p, rslt.rquota, now))
    else if rslt.status == Q_NOQUOTA then Err(StatusErrno(ESRCH))
    else if rslt.status == Q_EPERM then Err(StatusErrno(EPERM))
    else Err(StatusErrno(EINVAL))
  }

  /** The id type of the extended call: any non-zero kind asks for the group
      quota, so a project query (kind 2) becomes a group query. */
  function ExtIdType(kind: int): (t: int)
    ensures t == GQA_TYPE_USR <==> kind == 0
    ensures t == GQA_TYPE_USR || t == GQA_TYPE_GRP
  {
    if kind != 0 then GQA_TYPE_GRP else GQA_TYPE_USR
  }

  /** `getnfsquota`: the extended call first when the build has it, the
      legacy call only when that one failed in transport; then the status. */
  function GetNfsQuota(p: Platform, host: string, path: string, uid: int, kind: int, opt: RpcOpt,
                       ext: CallEnv<GetQuotaRslt>, legacy: CallEnv<GetQuotaRslt>, now: int): (o: NfsOutcome)
    ensures 1 <= |o.calls| <= 2
    ensures forall i :: 0 <= i < |o.calls| ==> o.calls[i].host == host && o.calls[i].setup == SetupFor(opt)
    ensures o.calls[0].args.ExtArgs? <==> p.extRquota
    ensures o.calls[0].args.ExtArgs? ==>
      o.calls[0] == RquotaCall(host, EXT_RQUOTAVERS, SetupFor(opt), ExtArgs(path, uid, ExtIdType(kind)))
    ensures |o.calls| == 2 <==> p.extRquota && CallAuRpc(ext).Err?
    ensures o.calls[|o.calls| - 1].args.LegacyArgs? ==>
      o.calls[|o.calls| - 1] == RquotaCall(host, RQUOTAVERS, SetupFor(opt), LegacyArgs(path, uid))
    ensures var env := if o.calls[|o.calls| - 1].args.ExtArgs? then ext else legacy;
      o.result == match CallAuRpc(env)
                  case Err(t) => Err(RpcFailed(t))
                  case Ok(rslt) => Interpret(p, rslt, now)
    ensures o.result.Ok? ==>
      var env := if o.calls[|o.calls| - 1].args.ExtArgs? then ext else legacy;
      CallAuRpc(env).Ok? && env.reply.status == Q_OK && o.result.value == Normalise(p, env.reply.rquota, now)
    ensures o.result.Err? && o.result.error.RpcFailed? ==>
      var env := if o.calls[|o.calls| - 1].args.ExtArgs? then ext else legacy;
      CallAuRpc(env) == Err(o.result.error.text)
  {
    var setup := SetupFor(opt);
    var legacyCall := RquotaCall(host, RQUOTAVERS, setup, LegacyArgs(path, uid));
    var legacyResult := match CallAuRpc(legacy)
      case Err(t) => Err(RpcFailed(t))
      case Ok(rslt) => Interpret(p, rslt, now);
    if p.extRquota then
      var extCall := RquotaCall(host, EXT_RQUOTAVERS, setup, ExtArgs(path, uid, ExtIdType(kind)));
      match CallAuRpc(ext)
      case Ok(rslt) => NfsOutcome([extCall], Interpret(p, rslt, now))
      case Err(_) => NfsOutcome([extCall, legacyCall], legacyResult)
    else NfsOutcome([legacyCall], legacyResult)
  }

  /** When both calls fail in transport, the query fails with the legacy
      call's RPC text and yields no values. */
  lemma BothCallsFailed(p: Platform, host: string, path: string, uid: int, kind: int, opt: RpcOpt,
                        ext: CallEnv<GetQuotaRslt>, legacy: CallEnv<GetQuotaRslt>, now: int)
    requires p.extRquota && CallAuRpc(ext).Err? && CallAuRpc(legacy).Err?
    ensures GetNfsQuota(p, host, path, uid, kind, opt, ext, legacy, now).result ==
      Err(RpcFailed(CallAuRpc(legacy).error))
  {
  }

  /** A server without the extended protocol is asked by uid alone: a group
      or project query then reports the quota of the user with that number. */
  lemma LegacyFallbackDropsKind(p: Platform, host: string, path: string, id: int, opt: RpcOpt,
                                ext: CallEnv<GetQuotaRslt>, legacy: CallEnv<GetQuotaRslt>, now: int)
    requires p.extRquota && CallAuRpc(ext).Err?
    ensures GetNfsQuota(p, host, path, id, 1, opt, ext, legacy, now) ==
            GetNfsQuota(p, host, path, id, 0, opt, ext, legacy, now).(calls := GetNfsQuota(p, host, path, id, 1, opt, ext, legacy, now).calls)
    ensures GetNfsQuota(p, host, path, id, 1, opt, ext, legacy, now).calls[1].args == LegacyArgs(path, id)
  {
  }
}

=== FILE: quota_object.dfy ===
/** The state of a `quota` object and the operations that set or show it:
    `Quota_new`, `Quota_init`, the `dev` and `is_nfs` attributes, `rpc_opt`
    and `Quota_Repr`. A NULL string field is `None`. */
module QuotaObject {
  import opened Wrappers
  import opened CString
  import opened QuotaTypes
  import opened Errors
  import opened MntTab
  import opened Resolve
  import opened RpcOptions

  /** Quota_ObjectType. */
  datatype Quota = Quota(
    path: Option<string>,      // the path given to the constructor, "n/a" for a remote query
    qcarg: Option<string>,     // the quotactl argument, or the remote path
    rpcHost: Option<string>,   // the NFS server
    devType: DevType,
    rpcOpt: RpcOpt)

  /** What every reachable object satisfies: a resolved object has an
      argument, an unresolved one has neither argument nor host, and a host
      is present exactly for NFS. */
  predicate Wellformed(q: Quota) {
    && (q.devType == Invalid ==> q.qcarg.None? && q.rpcHost.None?)
    && (q.devType != Invalid ==> q.qcarg.Some? && q.path.Some?)
    && (q.rpcHost.Some? <==> q.devType == NFS)
  }

  /** The RPC options of a build without RPC: the zero-filled allocation. */
  function ZeroRpcOpt(): RpcOpt {
    RpcOpt(false, 0, 0, 0, 0, "")
  }

  /** `Quota_new`: nothing resolved yet; the RPC defaults where RPC exists. */
  function New(p: Platform): (q: Quota)
    ensures Wellformed(q) && q.devType == Invalid && q.path.None?
    ensures p.rpc ==> q.rpcOpt == DefaultRpcOpt()
    ensures !p.rpc ==> q.rpcOpt.timeout == 0 && q.rpcOpt.authUid == 0
  {
    Quota(None, None, None, Invalid, if p.rpc then DefaultRpcOpt() else ZeroRpcOpt())
  }

  /** `Quota_init`: forget the previous resolution, then either take the
      remote host and path as given or resolve the local path. The RPC
      options survive re-initialisation. */
  function Init(p: Platform, q: Quota, path: string, rpcHost: Option<string>,
                st: StatTable, read: TableRead): (r: (Quota, Outcome<FsQuotaError>))
    ensures Wellformed(r.0)
    ensures r.0.rpcOpt == q.rpcOpt
    ensures rpcHost.Some? ==>
      r == (Quota(Some("n/a"), Some(path), rpcHost, NFS, q.rpcOpt), Done)
    ensures rpcHost.None? ==> r.0.path == Some(path)
    ensures rpcHost.None? ==> (r.1.Done? <==> SetQcarg(p, path, st, read).Ok?)
    ensures rpcHost.None? && r.1.Done? ==>
      var s := SetQcarg(p, path, st, read).value;
      r.0.devType == s.devType && r.0.qcarg == Some(s.qcarg) && r.0.rpcHost == s.rpcHost
    ensures r.1.Failed? ==>
      r.0.devType == Invalid && r.1.error == SetQcarg(p, path, st, read).error
  {
    if rpcHost.Some? then
      (Quota(Some("n/a"), Some(path), rpcHost, NFS, q.rpcOpt), Done)
    else
      match SetQcarg(p, path, st, read)
      case Ok(s) => (Quota(Some(path), Some(s.qcarg), s.rpcHost, s.devType, q.rpcOpt), Done)
      case Err(e) => (Quota(Some(path), None, None, Invalid, q.rpcOpt), Failed(e))
  }

  /** Re-initialisation leaves nothing of the earlier resolution behind: two
      objects with the same RPC options end up equal. */
  lemma InitForgetsPreviousState(p: Platform, q1: Quota, q2: Quota, path: string, rpcHost: Option<string>,
                                 st: StatTable, read: TableRead)
    requires q1.rpcOpt == q2.rpcOpt
    ensures Init(p, q1, path, rpcHost, st, read) == Init(p, q2, path, rpcHost, st, read)
  {
  }

  /** `rpc_opt` on an object: only the options change. */
  function RpcOptOf(p: Platform, q: Quota, args: RpcOptArgs, id: ProcessIdentity): (r: (Quota, Outcome<FsQuotaError>))
    ensures r.0.path == q.path && r.0.qcarg == q.qcarg && r.0.rpcHost == q.rpcHost && r.0.devType == q.devType
    ensures Wellformed(q) ==> Wellformed(r.0)
    ensures r.0.rpcOpt == SetRpcOpt(p, q.rpcOpt, args, id).opt && r.1 == SetRpcOpt(p, q.rpcOpt, args, id).outcome
  {
    var o := SetRpcOpt(p, q.rpcOpt, args, id);
    (q.(rpcOpt := o.opt), o.outcome)
  }

  /** How an attribute lookup ends: a value, an AttributeError, or a NULL
      return with no exception set (which Python reports as SystemError). */
  datatype AttrOutcome = Attr(text: string) | NoAttribute | AttrNullWithoutException

  /** The `dev` attribute as written: the AttributeError of the generic
      lookup is cleared before the fields are examined, so an unresolved
      object returns NULL with no exception set. */
  function DevAsWritten(q: Quota): (r: AttrOutcome)
    requires Wellformed(q)
    ensures r.AttrNullWithoutException? <==> q.devType == Invalid
    ensures !r.NoAttribute?
  {
    if q.rpcHost.Some? then Attr(q.rpcHost.value + ":" + q.qcarg.value)
    else if q.qcarg.Some? then Attr(q.qcarg.value)
    else AttrNullWithoutException
  }

  /** Asking a new object for `dev` raises nothing and returns nothing. */
  lemma UnresolvedDevAsWrittenRaisesNothing(p: Platform)
    ensures DevAsWritten(New(p)) == AttrNullWithoutException
  {
  }

  /** The `dev` attribute as evidently intended: "host:path" for a remote
      file system, the quotactl argument for a local one, and the
      AttributeError kept for an unresolved object. */
  function Dev(q: Quota): (r: AttrOutcome)
    requires Wellformed(q)
    ensures r.NoAttribute? <==> q.devType == Invalid
    ensures !r.AttrNullWithoutException?
    ensures q.devType == NFS ==> r == Attr(q.rpcHost.value + ":" + q.qcarg.value)
    ensures q.devType !in {Invalid, NFS} ==> r == Attr(q.qcarg.value)
    ensures r.Attr? ==> DevAsWritten(q) == r
  {
    var w := DevAsWritten(q);
    if w.AttrNullWithoutException? then NoAttribute else w
  }

  /** The `is_nfs` attribute. */
  function IsNfs(q: Quota): (r: bool)
    ensures Wellformed(q) ==> (r <==> q.rpcHost.Some?)
  {
    q.devType == NFS
  }

  /** A remote object built from a host and a path reports them back as `host:path`. */
  lemma RemoteDevRoundTrip(p: Platform, q: Quota, path: string, host: string, st: StatTable, read: TableRead)
    ensures var r := Init(p, q, path, Some(host), st, read).0;
            Dev(r) == Attr(host + ":" + path) && IsNfs(r)
  {
  }

  /** A path on a `host:/export` mount reports the mount's own source as
      `dev`: splitting at the first colon and joining again is the identity. */
  lemma {:induction false} DevOfHostColonMount(p: Platform, q: Quota, path: string, st: StatTable, entries: seq<MountEntry>)
    requires path in st
    requires FirstEligible(entries, st[path], st).Some?
    requires IsHostColonPath(entries[FirstEligible(entries, st[path], st).value].fsname)
    ensures Wellformed(Init(p, q, path, None, st, Ok(entries)).0)
    ensures Dev(Init(p, q, path, None, st, Ok(entries)).0) ==
            Attr(entries[FirstEligible(entries, st[path], st).value].fsname)
  {
    var fsname := entries[FirstEligible(entries, st[path], st).value].fsname;
    var i := IndexOf(fsname, ':').value;
    assert fsname[..i] + ":" + fsname[i + 1..] == fsname by {
      assert fsname[i] == ':';
      assert fsname == fsname[..i] + [fsname[i]] + fsname[i + 1..];
    }
  }

  /** Both spellings of an NFS mount report the same `dev`. */
  lemma {:induction false} DevOfPathAtHostMount(p: Platform, q: Quota, path: string, st: StatTable, entries: seq<MountEntry>)
    requires path in st
    requires FirstEligible(entries, st[path], st).Some?
    requires var e := entries[FirstEligible(entries, st[path], st).value];
             !IsHostColonPath(e.fsname) && IsPathAtHost(e.fstype, e.fsname)
    ensures var fsname := entries[FirstEligible(entries, st[path], st).value].fsname;
            var i := IndexOf(fsname, '@').value;
            Wellformed(Init(p, q, path, None, st, Ok(entries)).0) &&
            Dev(Init(p, q, path, None, st, Ok(entries)).0) == Attr(fsname[i + 1..] + ":" + fsname[..i])
  {
  }

  // ---------------------------------------------------------------------
  // Quota_Repr

  /** One `label value` part of the representation; the tag carries its separator. */
  datatype ReprField = Text(tag: string, text: string) | Number(tag: string, value: int)

  /** Unsigned options are printed with `%d`, so through Int32Of. */
  datatype QuotaRepr = Bare | Shown(path: string, fields: seq<ReprField>)

  function TypeName(t: DevType): string {
    match t
    case NFS => "NFS"
    case XFS => "XFS"
    case VxFS => "VXFS"
    case AFS => "AFS"
    case JFS2 => "JFS2"
    case _ => "no"
  }

  /** `%s` of a string field. A well-formed object has the fields the
      representation prints, so the placeholder for NULL never shows. */
  function NullText(s: Option<string>): string {
    s.GetOr("(null)")
  }

  /** The NFS fields in format order, given the two values passed for use_tcp and port. */
  function NfsFields(q: Quota, useTcpValue: int, portValue: int): seq<ReprField> {
    [Text("qcarg=", NullText(q.rpcHost) + ":" + NullText(q.qcarg)),
     Text("special:", "NFS"),
     Number("use_tcp:", useTcpValue),
     Number("port:", portValue),
     Number("timeout:", Int32Of(q.rpcOpt.timeout)),
     Number("auth_uid:", q.rpcOpt.authUid),
     Number("auth_gid:", q.rpcOpt.authGid),
     Text("auth_hostname:", q.rpcOpt.authHostname)]
  }

  function LocalFields(q: Quota): seq<ReprField> {
    [Text("qcarg=", NullText(q.qcarg)), Text("special:", TypeName(q.devType))]
  }

  /** `Quota_Repr` as written: port and use_tcp are passed in the opposite
      order from the format's `use_tcp:%d, port:%d`. */
  function ReprAsWritten(q: Quota): QuotaRepr {
    if q.devType == Invalid then Bare
    else if q.devType == NFS then
      Shown(NullText(q.path), NfsFields(q, Int32Of(q.rpcOpt.port), if q.rpcOpt.useTcp then 1 else 0))
    else Shown(NullText(q.path), LocalFields(q))
  }

  /** With the NFS port 2049 over UDP the as-written text shows `use_tcp:2049, port:0`. */
  lemma ReprAsWrittenSwapsPort()
    ensures var q := Quota(Some("n/a"), Some("/export"), Some("srv"), NFS, DefaultRpcOpt().(port := 2049));
            var r := ReprAsWritten(q);
            r.Shown? && r.fields[2] == Number("use_tcp:", 2049) && r.fields[3] == Number("port:", 0)
  {
  }

  /** `Quota_Repr` with each option under its own tag. */
  function Repr(q: Quota): (r: QuotaRepr)
    ensures r.Bare? <==> q.devType == Invalid
    ensures r.Shown? ==> r.path == NullText(q.path)
    ensures q.devType == NFS ==>
      && r.Shown? && |r.fields| == 8
      && r.fields[2] == Number("use_tcp:", if q.rpcOpt.useTcp then 1 else 0)
      && r.fields[3] == Number("port:", Int32Of(q.rpcOpt.port))
      && r.fields[4] == Number("timeout:", Int32Of(q.rpcOpt.timeout))
      && r.fields[5] == Number("auth_uid:", q.rpcOpt.authUid)
      && r.fields[6] == Number("auth_gid:", q.rpcOpt.authGid)
      && r.fields[7] == Text("auth_hostname:", q.rpcOpt.authHostname)
    ensures q.devType !in {Invalid, NFS} ==> r.Shown? && |r.fields| == 2
    ensures r.Shown? ==> r.fields[0] == Text("qcarg=", if q.devType == NFS then NullText(q.rpcHost) + ":" + NullText(q.qcarg) else NullText(q.qcarg))
    ensures r.Shown? ==> r.fields[1] == Text("special:", TypeName(q.devType))
    ensures q.devType != NFS ==> ReprAsWritten(q) == r
  {
    if q.devType == Invalid then Bare
    else if q.devType == NFS then
      Shown(NullText(q.path), NfsFields(q, if q.rpcOpt.useTcp then 1 else 0, Int32Of(q.rpcOpt.port)))
    else Shown(NullText(q.path), LocalFields(q))
  }

  /** For a well-formed resolved object the qcarg field is the `dev` attribute. */
  lemma ReprShowsDev(q: Quota)
    requires Wellformed(q) && q.devType != Invalid
    ensures Repr(q).fields[0] == Text("qcarg=", Dev(q).text)
  {
  }

  /** The text: `<FsQuota.quota(path), field, field, ...>`. */
  function Render(r: QuotaRepr): (s: string)
    ensures r.Bare? ==> s == "<FsQuota.quota()>"
    ensures r.Shown? ==> StartsWith(s, "<FsQuota.quota(" + r.path + ")") && s[|s| - 1] == '>'
  {
    match r
    case Bare => "<FsQuota.quota()>"
    case Shown(path, fields) =>
      var head := "<FsQuota.quota(" + path + ")";
      var s := head + RenderFields(fields) + ">";
      assert s[..|head|] == head;
      s
  }

  function RenderFields(fields: seq<ReprField>): string {
    if |fields| == 0 then ""
    else
      var f := fields[0];
      var v := match f
        case Text(_, t) => t
        case Number(_, n) => DecimalString(n);
      ", " + f.tag + v + RenderFields(fields[1..])
  }

  /** New and Init keep the object well formed, and so does rpc_opt. */
  lemma {:induction false} OperationsKeepWellformed(p: Platform, q: Quota, path: string, rpcHost: Option<string>,
                                                    st: StatTable, read: TableRead, args: RpcOptArgs, id: ProcessIdentity)
    requires Wellformed(q)
    ensures Wellformed(New(p))
    ensures Wellformed(Init(p, q, path, rpcHost, st, read).0)
    ensures Wellformed(RpcOptOf(p, q, args, id).0)
  {
  }
}

=== FILE: quota_types.dfy ===
/** Types shared by the resolver and the quota operations: the backend
    enumeration of src/FsQuota.c and the compile-time configuration that
    the source expresses as preprocessor switches. */
module QuotaTypes {

  /** T_QUOTA_DEV_FS_TYPE: which access method a resolved path needs. */
  datatype DevType = Invalid | Regular | NFS | XFS | VxFS | AFS | JFS2

  /** How a local mount entry becomes the quotactl device argument:
      the mount point (USE_IOCTL, QCARG_MNTPT), the caller's own path
      (HAVE_JFS2, AIX, OSF_QUOTA), the `quotas` file under the mount point
      (Q_CTL_V2), or the device with the loop-mount special case (otherwise). */
  datatype QcargMode = MountPoint | TargetPath | QuotasFile | DeviceOrLoop

  /** The family of the local quota system call. */
  datatype QuotaApi =
    | NetBsdLibquota   // NETBSD_LIBQUOTA: quota_open / quota_get / quota_put
    | QuotaIoctl       // USE_IOCTL: ioctl(Q_QUOTACTL) on the opened device
    | LinuxQuotactl    // Q_CTL_V3: the linuxquota_* wrappers
    | QuotactlV2       // Q_CTL_V2: quotactl(path, QCMD(cmd, type), id, addr)
    | QuotactlV1       // quotactl(cmd, path, id, addr)

  type PositiveInt = x: int | x > 0 witness 1024

  /** One build of the module: the switches of myconfig.h and the compiler. */
  datatype Platform = Platform(
    devQbSize: PositiveInt,     // DEV_QBSIZE, the block unit of the local quota calls
    maxMachineName: nat,        // MAX_MACHINE_NAME
    qcargMode: QcargMode,
    api: QuotaApi,
    linux: bool,                // `linux`: XFS calls carry an id type
    aix: bool,                  // AIX: quotactl is preceded by a stat of the argument
    sgiXfs: bool,               // SGI_XFS
    solarisVxfs: bool,          // SOLARIS_VXFS
    afsQuota: bool,             // AFSQUOTA
    hasJfs2: bool,              // HAVE_JFS2
    rpc: bool,                  // not NO_RPC
    extRquota: bool,            // USE_EXT_RQUOTA
    linuxRquotadBug: bool)      // LINUX_RQUOTAD_BUG

  /** The id space a quota call addresses. */
  datatype IdType = UserQuota | GroupQuota | ProjectQuota

  /** The id type of the calls that distinguish only users and groups: any
      non-zero kind is a group, so kind 2 (project) is collapsed to group. */
  function KindIdType(kind: int): (t: IdType)
    ensures t == UserQuota <==> kind == 0
    ensures t != ProjectQuota
  {
    if kind != 0 then GroupQuota else UserQuota
  }

  /** The id type of the Linux XFS calls: 2 project, 1 group, anything else user. */
  function XfsIdType(kind: int): (t: IdType)
    ensures t == ProjectQuota <==> kind == 2
    ensures t == GroupQuota <==> kind == 1
    ensures t == UserQuota <==> kind != 1 && kind != 2
  {
    if kind == 2 then ProjectQuota else if kind == 1 then GroupQuota else UserQuota
  }

  /** The eight values of a quota query, in the order of the returned tuple;
      also the shape of the backends' quota records. */
  datatype Usage = Usage(
    bcur: nat, bsoft: nat, bhard: nat, btime: int,
    fcur: nat, fsoft: nat, fhard: nat, ftime: int)

  const UInt32Modulus := 0x1_0000_0000

  /** A C `unsigned int`. */
  type UInt32 = x: nat | x < UInt32Modulus

  /** A C `int`. */
  type Int32 = x: int | -0x8000_0000 <= x < 0x8000_0000

  /** An unsigned value stored in, or printed as, a 32-bit `int`: the low 32
      bits, read as two's complement. */
  function Int32Of(x: nat): (r: Int32)
    ensures (r - x) % UInt32Modulus == 0
    ensures x < 0x8000_0000 ==> r == x
    ensures 0x8000_0000 <= x < UInt32Modulus ==> r == x - UInt32Modulus
  {
    var low := x % UInt32Modulus;
    if low < 0x8000_0000 then low else low - UInt32Modulus
  }
}

=== FILE: resolve.dfy ===
/** `Quota_setqcarg`: from a path to the quota backend and the argument its
    calls take. stat(2) is an input: the st_dev of every path that can be
    stat-ed; any other path fails to stat with ENOENT. */
module Resolve {
  import opened Wrappers
  import opened CString
  import opened QuotaTypes
  import opened Errors
  import opened MntTab

  /** The device id (st_dev) of each path stat can reach. */
  type StatTable = map<string, nat>

  /** The backend chosen for a path, with its quotactl argument and, for
      NFS, the remote host. */
  datatype Selection = Selection(devType: DevType, qcarg: string, rpcHost: Option<string>)

  /** Mount types that never carry quotas: compared exactly, except the auto* family. */
  predicate IsPseudoType(fstype: string) {
    || fstype == "lofs"
    || fstype == "ignore"
    || fstype == "proc"
    || fstype == "rootfs"
    || StartsWith(fstype, "auto")
  }

  /** The entry's mount point stats to the target's device. */
  predicate OnTargetDevice(e: MountEntry, targetDev: nat, st: StatTable) {
    e.dir in st && st[e.dir] == targetDev
  }

  /** An entry the scan accepts for the target device. */
  predicate Eligible(e: MountEntry, targetDev: nat, st: StatTable) {
    !IsPseudoType(e.fstype) && OnTargetDevice(e, targetDev, st)
  }

  /** The scan of the mount table from index from on: the first eligible entry. */
  function FirstEligibleFrom(entries: seq<MountEntry>, targetDev: nat, st: StatTable, from: nat): (r: Option<nat>)
    ensures r.Some? ==> from <= r.value < |entries| && Eligible(entries[r.value], targetDev, st)
    ensures r.Some? ==> forall j :: from <= j < r.value ==> !Eligible(entries[j], targetDev, st)
    ensures r.None? ==> forall j :: from <= j < |entries| ==> !Eligible(entries[j], targetDev, st)
    decreases |entries| - from
  {
    if from >= |entries| then None
    else if Eligible(entries[from], targetDev, st) then Some(from)
    else FirstEligibleFrom(entries, targetDev, st, from + 1)
  }

  function FirstEligible(entries: seq<MountEntry>, targetDev: nat, st: StatTable): Option<nat> {
    FirstEligibleFrom(entries, targetDev, st, 0)
  }

  // ---------------------------------------------------------------------
  // The device comparison as written: the target's st_dev is kept in a
  // 32-bit int, and that int is converted back to the 64-bit dev_t of each
  // mount point's st_dev for the comparison (src/FsQuota.c:1701, 1707, 1734).

  const DevTModulus := 0x1_0000_0000_0000_0000

  /** The device test of the scan, as written. */
  predicate OnTargetDeviceAsWritten(e: MountEntry, targetDev: nat, st: StatTable) {
    e.dir in st && Int32Of(targetDev) % DevTModulus == st[e.dir]
  }

  /** Below 2^31 the truncation is harmless: both tests agree. */
  lemma AsWrittenAgreesOnSmallDevices(e: MountEntry, targetDev: nat, st: StatTable)
    requires targetDev < 0x8000_0000
    ensures OnTargetDeviceAsWritten(e, targetDev, st) <==> OnTargetDevice(e, targetDev, st)
  {
  }

  /** A file system whose st_dev is 2^31 never matches itself as written. */
  lemma AsWrittenMissesLargeDevice()
    ensures var e := MountEntry("/dev/sdz1", "/data", "ext4", "rw");
            var st := map["/data" := 0x8000_0000];
            OnTargetDevice(e, 0x8000_0000, st) && !OnTargetDeviceAsWritten(e, 0x8000_0000, st)
  {
  }

  // ---------------------------------------------------------------------
  // Classification of the matching entry

  /** `host:/path`: not absolute, and the first ':' is followed by '/'. */
  predicate IsHostColonPath(fsname: string) {
    && (|fsname| == 0 || fsname[0] != '/')
    && var i := IndexOf(fsname, ':');
       i.Some? && i.value + 1 < |fsname| && fsname[i.value + 1] == '/'
  }

  /** `/path@host` on an nfs* mount: absolute, with no '/' after the first '@'. */
  predicate IsPathAtHost(fstype: string, fsname: string) {
    && StartsWith(fstype, "nfs")
    && |fsname| > 0 && fsname[0] == '/'
    && var i := IndexOf(fsname, '@');
       i.Some? && IndexFrom(fsname, '/', i.value + 1).None?
  }

  /** The local backend a mount type selects, among those the build supports. */
  function LocalDevType(p: Platform, e: MountEntry): (t: DevType)
    ensures t == XFS <==> p.sgiXfs && e.fstype == "xfs"
    ensures t == VxFS <==> p.solarisVxfs && e.fstype == "vxfs"
    ensures t == AFS <==> p.afsQuota && e.fstype == "afs" && e.fsname == "AFS"
    ensures t == JFS2 <==> p.hasJfs2 && e.fstype == "jfs2"
    ensures t !in {Invalid, NFS}
  {
    var t0 := Regular;
    var t1 := if p.sgiXfs && e.fstype == "xfs" then XFS else t0;
    var t2 := if p.solarisVxfs && e.fstype == "vxfs" then VxFS else t1;
    var t3 := if p.afsQuota && e.fstype == "afs" && e.fsname == "AFS" then AFS else t2;
    if p.hasJfs2 && e.fstype == "jfs2" then JFS2 else t3
  }

  const LoopPrefix := "loop=/dev/"

  /** The span [start, end) of the `loop=/dev/...` option, when the first
      occurrence of `loop=/dev/` opens an option (start of the list or after a comma). */
  function LoopOptionSpan(opts: string): (r: Option<(nat, nat)>)
    ensures r.Some? ==> r.value.0 + |LoopPrefix| <= r.value.1 <= |opts|
    ensures r.Some? ==> Find(opts, LoopPrefix) == Some(r.value.0)
    ensures r.Some? ==> r.value.0 == 0 || opts[r.value.0 - 1] == ','
    ensures r.Some? ==> r.value.1 == |opts| || opts[r.value.1] == ','
    ensures r.Some? ==> forall j :: r.value.0 <= j < r.value.1 ==> opts[j] != ','
    ensures r.None? ==>
      (Find(opts, LoopPrefix).None? ||
       (Find(opts, LoopPrefix).value > 0 && opts[Find(opts, LoopPrefix).value - 1] != ','))
  {
    match Find(opts, LoopPrefix)
    case None => None
    case Some(i) =>
      if i == 0 || opts[i - 1] == ',' then
        assert opts[i..i + |LoopPrefix|] == LoopPrefix;
        assert forall j :: i <= j < i + |LoopPrefix| ==> opts[j] == LoopPrefix[j - i];
        match IndexFrom(opts, ',', i)
        case None => Some((i, |opts|))
        case Some(j) => Some((i, j))
      else None
  }

  /** The quotactl argument of a local mount. */
  function LocalQcarg(p: Platform, path: string, e: MountEntry): string {
    match p.qcargMode
    case MountPoint => e.dir
    case TargetPath => path
    case QuotasFile => e.dir + "/quotas"
    case DeviceOrLoop =>
      match LoopOptionSpan(e.opts)
      case Some((i, j)) => e.opts[i..j]
      case None => e.fsname
  }

  /** The selection for the matching entry. */
  function Classify(p: Platform, path: string, e: MountEntry): (s: Selection)
    ensures s.devType != Invalid
    ensures s.devType == NFS <==> s.rpcHost.Some?
    ensures s.devType == NFS <==> IsHostColonPath(e.fsname) || IsPathAtHost(e.fstype, e.fsname)
  {
    if IsHostColonPath(e.fsname) then
      var i := IndexOf(e.fsname, ':').value;
      Selection(NFS, e.fsname[i + 1..], Some(e.fsname[..i]))
    else if IsPathAtHost(e.fstype, e.fsname) then
      var i := IndexOf(e.fsname, '@').value;
      Selection(NFS, e.fsname[..i], Some(e.fsname[i + 1..]))
    else
      Selection(LocalDevType(p, e), LocalQcarg(p, path, e), None)
  }

  /** `Quota_setqcarg`: stat the path, scan the table for the first eligible
      entry, and classify it; fail when the path, the table or a match is missing. */
  function SetQcarg(p: Platform, path: string, st: StatTable, read: TableRead): (r: Result<Selection, FsQuotaError>)
    ensures path !in st ==> r == Err(OsException(ENOENT, "Failed to access path"))
    ensures path in st && read.Err? ==> r == Err(OsException(read.error, "setmntent"))
    ensures path in st && read.Ok? ==>
      (r.Ok? <==> exists i :: 0 <= i < |read.value| && Eligible(read.value[i], st[path], st))
    ensures r.Ok? ==>
      (path in st && read.Ok? &&
       exists i :: 0 <= i < |read.value| && Eligible(read.value[i], st[path], st) &&
         (forall j :: 0 <= j < i ==> !Eligible(read.value[j], st[path], st)) &&
         r.value == Classify(p, path, read.value[i]))
    ensures path in st && read.Ok? && r.Err? ==>
      r.error == OsException(EINVAL, "Mount path not found or device unsupported")
    ensures r.Ok? ==> r.value.devType != Invalid
  {
    if path !in st then Err(OsException(ENOENT, "Failed to access path"))
    else match read
      case Err(e) => Err(OsException(e, "setmntent"))
      case Ok(entries) =>
        match FirstEligible(entries, st[path], st)
        case None => Err(OsException(EINVAL, "Mount path not found or device unsupported"))
        case Some(i) => Ok(Classify(p, path, entries[i]))
  }

  // ---------------------------------------------------------------------
  // Properties of the resolution

  /** A pseudo mount is never the selected entry, whatever its device. */
  lemma PseudoEntriesNeverSelected(entries: seq<MountEntry>, targetDev: nat, st: StatTable, k: nat)
    requires k < |entries| && IsPseudoType(entries[k].fstype)
    ensures FirstEligible(entries, targetDev, st) != Some(k)
  {
  }

  /** Which entry a pseudo mount shadows: none. Removing pseudo entries in
      front of the match does not change the selection. */
  lemma {:induction false} PseudoPrefixIsTransparent(pseudo: seq<MountEntry>, rest: seq<MountEntry>, targetDev: nat, st: StatTable)
    requires forall k :: 0 <= k < |pseudo| ==> IsPseudoType(pseudo[k].fstype)
    ensures FirstEligible(pseudo + rest, targetDev, st).Some? <==> FirstEligible(rest, targetDev, st).Some?
    ensures FirstEligible(rest, targetDev, st).Some? ==>
      FirstEligible(pseudo + rest, targetDev, st).value == |pseudo| + FirstEligible(rest, targetDev, st).value
  {
    var all := pseudo + rest;
    assert forall k :: 0 <= k < |rest| ==> all[|pseudo| + k] == rest[k];
    assert forall k :: 0 <= k < |pseudo| ==> all[k] == pseudo[k];
    var b := FirstEligible(rest, targetDev, st);
    if b.Some? {
      assert Eligible(all[|pseudo| + b.value], targetDev, st);
    }
  }

  /** The two NFS spellings, `host:/path` and `/path@host` on an nfs* mount,
      resolve to the same host and exported path. */
  lemma NfsSpellingsAgree(p: Platform, path: string, host: string, exported: string, dir: string, fstype: string, opts: string)
    requires ':' !in host && '/' !in host && '@' !in exported
    requires |exported| > 0 && exported[0] == '/'
    requires StartsWith(fstype, "nfs")
    ensures Classify(p, path, MountEntry(host + ":" + exported, dir, fstype, opts)) == Selection(NFS, exported, Some(host))
    ensures Classify(p, path, MountEntry(exported + "@" + host, dir, fstype, opts)) == Selection(NFS, exported, Some(host))
  {
    var colon := host + ":" + exported;
    assert colon[|host|] == ':';
    assert forall j :: 0 <= j < |host| ==> colon[j] == host[j];
    var ic := IndexOf(colon, ':');
    assert ic == Some(|host|);
    assert colon[|host| + 1] == '/';
    assert colon[..|host|] == host;
    assert colon[|host| + 1..] == exported;
    assert |colon| == 0 || colon[0] != '/' by {
      if |host| > 0 { assert colon[0] == host[0]; }
    }

    var at := exported + "@" + host;
    assert at[|exported|] == '@';
    assert forall j :: 0 <= j < |exported| ==> at[j] == exported[j];
    var ia := IndexOf(at, '@');
    assert ia == Some(|exported|);
    assert forall j :: |exported| + 1 <= j < |at| ==> at[j] == host[j - |exported| - 1];
    assert IndexFrom(at, '/', |exported| + 1).None?;
    assert at[..|exported|] == exported;
    assert at[|exported| + 1..] == host;
    assert !IsHostColonPath(at);
  }

  /** In device mode, a loop mount resolves to its `loop=/dev/...` option
      (prefix kept, up to the next comma); any other mount to its device. */
  lemma DeviceModeUsesLoopOption(p: Platform, path: string, e: MountEntry)
    requires p.qcargMode == DeviceOrLoop
    requires !IsHostColonPath(e.fsname) && !IsPathAtHost(e.fstype, e.fsname)
    ensures LoopOptionSpan(e.opts).Some? ==>
      var s := Classify(p, path, e).qcarg;
      StartsWith(s, LoopPrefix) && ',' !in s && OccursAt(e.opts, s, LoopOptionSpan(e.opts).value.0)
    ensures LoopOptionSpan(e.opts).None? ==> Classify(p, path, e).qcarg == e.fsname
  {
    if LoopOptionSpan(e.opts).Some? {
      var (i, j) := LoopOptionSpan(e.opts).value;
      var s := e.opts[i..j];
      assert Find(e.opts, LoopPrefix) == Some(i);
      assert OccursAt(e.opts, LoopPrefix, i);
      assert s[..|LoopPrefix|] == e.opts[i..i + |LoopPrefix|];
      assert forall k :: 0 <= k < |s| ==> s[k] == e.opts[i + k];
    }
  }

  /** Only the first occurrence of `loop=/dev/` is examined: when it sits
      inside another option, a later genuine loop option is not used. */
  lemma OnlyFirstLoopOccurrenceCounts()
    ensures LoopOptionSpan("xloop=/dev/a,loop=/dev/loop0").None?
  {
    var o := "xloop=/dev/a,loop=/dev/loop0";
    assert o[0] == 'x' && LoopPrefix[0] == 'l';
    assert !OccursAt(o, LoopPrefix, 0);
    assert forall k :: 0 <= k < |LoopPrefix| ==> o[1 + k] == LoopPrefix[k];
    assert o[1..1 + |LoopPrefix|] == LoopPrefix;
    assert OccursAt(o, LoopPrefix, 1);
  }
}

=== FILE: rpc_options.dfy ===
/** The RPC side of a quota object: the options record (`Quota_new`,
    `Quota_rpc_opt`) and what `callaurpc` makes of it. The process identity,
    gethostname, and the RPC library's answers are inputs. */
module RpcOptions {
  import opened Wrappers
  import opened QuotaTypes
  import opened Errors
  import opened CString

  const RpcDefaultTimeout := 4000
  /** A `uid_t` or `gid_t`: an unsigned 32-bit id. */
  type IdT = x: int | 0 <= x < 0x1_0000_0000

  /** T_QUOTA_RPC_OPT. */
  datatype RpcOpt = RpcOpt(
    useTcp: bool,
    port: nat,           // unsigned; 0 asks the remote portmapper
    timeout: nat,        // unsigned, in milliseconds
    authUid: int,        // negative: no explicit credentials
    authGid: int,
    authHostname: string)

  /** The options of a new quota object: the zero-filled allocation with the
      default timeout and no explicit credentials. */
  function DefaultRpcOpt(): (o: RpcOpt)
    ensures !o.useTcp && o.port == 0 && o.timeout == RpcDefaultTimeout
    ensures o.authUid < 0 && o.authGid < 0 && o.authHostname == ""
  {
    RpcOpt(false, 0, RpcDefaultTimeout, -1, -1, "")
  }

  /** The keyword arguments of `rpc_opt`; absent ones leave the option as it was.
      rpc_port and rpc_timeout are parsed with `I` (masked to 32 bits without
      an overflow check), auth_uid and auth_gid with `i` (a C int). */
  datatype RpcOptArgs = RpcOptArgs(
    port: Option<int>,
    useTcp: Option<bool>,
    timeout: Option<int>,
    authUid: Option<Int32>,
    authGid: Option<Int32>,
    hostname: Option<string>)

  /** getuid(), getgid(), and the result of gethostname (a name or an errno). */
  datatype ProcessIdentity = ProcessIdentity(uid: IdT, gid: IdT, hostname: Result<string, int>)

  datatype RpcOptResult = RpcOptResult(opt: RpcOpt, outcome: Outcome<FsQuotaError>)

  /** The options after argument parsing: every given value is stored at once. */
  function ApplyArgs(opt: RpcOpt, args: RpcOptArgs): (o: RpcOpt)
    ensures o.port == if args.port.Some? then args.port.value % UInt32Modulus else opt.port
    ensures o.timeout == if args.timeout.Some? then args.timeout.value % UInt32Modulus else opt.timeout
    ensures o.useTcp == args.useTcp.GetOr(opt.useTcp)
    ensures o.authUid == if args.authUid.Some? then args.authUid.value else opt.authUid
    ensures o.authGid == if args.authGid.Some? then args.authGid.value else opt.authGid
    ensures o.authHostname == opt.authHostname
  {
    RpcOpt(
      args.useTcp.GetOr(opt.useTcp),
      if args.port.Some? then args.port.value % UInt32Modulus else opt.port,
      if args.timeout.Some? then args.timeout.value % UInt32Modulus else opt.timeout,
      if args.authUid.Some? then args.authUid.value else opt.authUid,
      if args.authGid.Some? then args.authGid.value else opt.authGid,
      opt.authHostname)
  }

  /** `Quota_rpc_opt`: store the arguments, complete a half-given credential
      pair from the process identity, then set the credential hostname from
      the argument or, for explicit credentials, from gethostname. The
      hostname's length is that of its UTF-8 encoding. */
  function SetRpcOpt(p: Platform, opt: RpcOpt, args: RpcOptArgs, id: ProcessIdentity): (r: RpcOptResult)
    ensures !p.rpc ==> r == RpcOptResult(opt, Done)
    ensures p.rpc ==> r.opt.port == ApplyArgs(opt, args).port && r.opt.timeout == ApplyArgs(opt, args).timeout
    ensures p.rpc ==> r.opt.useTcp == ApplyArgs(opt, args).useTcp
    ensures p.rpc ==>
      var a := ApplyArgs(opt, args);
      && r.opt.authUid == (if a.authUid < 0 && a.authGid >= 0 then Int32Of(id.uid) else a.authUid)
      && r.opt.authGid == (if a.authGid < 0 && r.opt.authUid >= 0 then Int32Of(id.gid) else a.authGid)
    ensures p.rpc && args.hostname.Some? && args.hostname.value != "" ==>
      (if Utf8Length(args.hostname.value) < p.maxMachineName
       then r.outcome == Done && r.opt.authHostname == args.hostname.value
       else r.outcome == Failed(OsException(ENAMETOOLONG, "hostname is too long"))
            && r.opt.authHostname == opt.authHostname)
    ensures p.rpc && (args.hostname.None? || args.hostname.value == "") && r.opt.authUid >= 0 ==>
      (if id.hostname.Ok?
       then r.outcome == Done && r.opt.authHostname == id.hostname.value
       else r.outcome == Failed(OsException(id.hostname.error, "gethostname"))
            && r.opt.authHostname == opt.authHostname)
    ensures p.rpc && (args.hostname.None? || args.hostname.value == "") && r.opt.authUid < 0 ==>
      r.outcome == Done && r.opt.authHostname == opt.authHostname
    ensures r.outcome.Failed? ==> p.rpc
  {
    if !p.rpc then RpcOptResult(opt, Done)
    else
      var o0 := ApplyArgs(opt, args);
      var o1 := if o0.authUid < 0 && o0.authGid >= 0 then o0.(authUid := Int32Of(id.uid)) else o0;
      var o2 := if o1.authGid < 0 && o1.authUid >= 0 then o1.(authGid := Int32Of(id.gid)) else o1;
      if args.hostname.Some? && args.hostname.value != "" then
        if Utf8Length(args.hostname.value) < p.maxMachineName then RpcOptResult(o2.(authHostname := args.hostname.value), Done)
        else RpcOptResult(o2, Failed(OsException(ENAMETOOLONG, "hostname is too long")))
      else if o2.authUid >= 0 then
        match id.hostname
        case Ok(name) => RpcOptResult(o2.(authHostname := name), Done)
        case Err(e) => RpcOptResult(o2, Failed(OsException(e, "gethostname")))
      else RpcOptResult(o2, Done)
  }

  /** The limit counts bytes: forty accented letters are 80 bytes, too long
      for a 64-byte buffer although they are only 40 characters. */
  lemma {:induction false} AccentedHostnameTooLong(p: Platform, opt: RpcOpt, id: ProcessIdentity)
    requires p.rpc && p.maxMachineName == 64
    ensures var name := seq(40, _ => 'é');
            SetRpcOpt(p, opt, RpcOptArgs(None, None, None, None, None, Some(name)), id).outcome
            == Failed(OsException(ENAMETOOLONG, "hostname is too long"))
  {
    var name := seq(40, _ => 'é');
    TwoByteTextDoubles(name);
  }

  /** After `rpc_opt` the credential ids are both set or both unset, whether
      or not the hostname was accepted, as long as the process's own ids fit an int. */
  lemma CredentialPairComplete(p: Platform, opt: RpcOpt, args: RpcOptArgs, id: ProcessIdentity)
    requires p.rpc
    requires id.uid < 0x8000_0000 && id.gid < 0x8000_0000
    ensures var o := SetRpcOpt(p, opt, args, id).opt; o.authUid >= 0 <==> o.authGid >= 0
  {
  }

  /** A credential half given alone is completed from the process identity. */
  lemma HalfCredentialCompleted(p: Platform, opt: RpcOpt, args: RpcOptArgs, id: ProcessIdentity)
    requires p.rpc && id.uid < 0x8000_0000 && id.gid < 0x8000_0000
    requires args.authUid.Some? && args.authUid.value >= 0 && args.authGid.None? && opt.authGid < 0
    ensures SetRpcOpt(p, opt, args, id).opt.authUid == args.authUid.value
    ensures SetRpcOpt(p, opt, args, id).opt.authGid == id.gid
  {
  }

  /** A process uid of 2^32 - 2 does not fit an int: completing a lone gid
      then leaves the uid negative and the pair split. */
  lemma LargeProcessUidSplitsPair()
    ensures var p := Platform(1024, 64, DeviceOrLoop, LinuxQuotactl, true, false, false, false, false, false, true, true, false);
            var args := RpcOptArgs(None, None, None, None, Some(100), Some("client"));
            var o := SetRpcOpt(p, DefaultRpcOpt(), args, ProcessIdentity(0xFFFF_FFFE, 100, Ok("h"))).opt;
            o.authUid < 0 && o.authGid >= 0
  {
  }

  // ---------------------------------------------------------------------
  // callaurpc

  /** struct timeval. */
  datatype TimeVal = TimeVal(sec: nat, usec: nat)

  /** A millisecond count as the timeval callaurpc builds from it. */
  function TimeValOfMillis(ms: nat): (tv: TimeVal)
    ensures tv.usec < 1_000_000 && tv.usec % 1000 == 0
    ensures tv.sec * 1_000_000 + tv.usec == ms * 1000
  {
    var tv := TimeVal(ms / 1000, (ms % 1000) * 1000);
    assert ms == (ms / 1000) * 1000 + ms % 1000;
    tv
  }

  function MillisOfTimeVal(tv: TimeVal): nat {
    tv.sec * 1000 + tv.usec / 1000
  }

  /** The timeval split loses no millisecond. */
  lemma TimeValRoundTrip(ms: nat)
    ensures MillisOfTimeVal(TimeValOfMillis(ms)) == ms
  {
    var tv := TimeValOfMillis(ms);
    assert tv.usec / 1000 == ms % 1000;
  }

  /** The credentials attached to the client handle. */
  datatype Credentials = UnixCredentials(hostname: string, uid: int, gid: int) | ProcessCredentials

  /** The transport callaurpc creates; UDP carries the retry interval. */
  datatype Transport = Udp(wait: TimeVal) | Tcp

  /** Everything callaurpc derives from the options for one call. */
  datatype ClientSetup = ClientSetup(transport: Transport, port: nat, credentials: Credentials, callTimeout: TimeVal)

  /** Explicit credentials exactly when both ids are set; otherwise those of the process. */
  function CredentialsFor(opt: RpcOpt): (c: Credentials)
    ensures c.UnixCredentials? <==> opt.authUid >= 0 && opt.authGid >= 0
    ensures c.UnixCredentials? ==> c.hostname == opt.authHostname && c.uid == opt.authUid && c.gid == opt.authGid
  {
    if opt.authUid >= 0 && opt.authGid >= 0 then UnixCredentials(opt.authHostname, opt.authUid, opt.authGid)
    else ProcessCredentials
  }

  /** The client setup of callaurpc: `htons` keeps the low 16 bits of the
      port, and the same timeout serves as UDP retry interval and call deadline. */
  function SetupFor(opt: RpcOpt): (s: ClientSetup)
    ensures s.transport.Udp? <==> !opt.useTcp
    ensures s.port < 0x1_0000 && (s.port - opt.port) % 0x1_0000 == 0
    ensures s.transport.Udp? ==> s.transport.wait == s.callTimeout
    ensures MillisOfTimeVal(s.callTimeout) == opt.timeout
    ensures s.credentials == CredentialsFor(opt)
  {
    var tv := TimeValOfMillis(opt.timeout);
    TimeValRoundTrip(opt.timeout);
    ClientSetup(if opt.useTcp then Tcp else Udp(tv), opt.port % 0x1_0000, CredentialsFor(opt), tv)
  }

  // clnt_stat values
  const RPC_SUCCESS := 0
  const RPC_UNKNOWNHOST := 13

  /** How client creation went: a handle, or the cf_stat of rpc_createerr. */
  datatype CreateOutcome = Created | CreateFailed(cfStat: int)

  /** The network's answers to one callaurpc: does the host resolve, is a
      client created, and the status and decoded reply of clnt_call. */
  datatype CallEnv<R> = CallEnv(hostKnown: bool, create: CreateOutcome, callStat: int, reply: R)

  /** `callaurpc`: the reply, or the text of the first step that failed. */
  function CallAuRpc<R>(env: CallEnv<R>): (r: Result<R, ErrorText>)
    ensures r.Ok? <==> env.hostKnown && env.create.Created? && env.callStat == RPC_SUCCESS
    ensures r.Ok? ==> r.value == env.reply
    ensures !env.hostKnown ==> r == Err(RpcStatusText(RPC_UNKNOWNHOST))
    ensures env.hostKnown && env.create.CreateFailed? ==>
      r == Err(if env.create.cfStat != RPC_SUCCESS then RpcStatusText(env.create.cfStat)
               else Literal("RPC creation failed for unknown reasons"))
    ensures env.hostKnown && env.create.Created? && env.callStat != RPC_SUCCESS ==>
      r == Err(RpcStatusText(env.callStat))
  {
    if !env.hostKnown then Err(RpcStatusText(RPC_UNKNOWNHOST))
    else match env.create
      case CreateFailed(cf) =>
        if cf != RPC_SUCCESS then Err(RpcStatusText(cf)) else Err(Literal("RPC creation failed for unknown reasons"))
      case Created =>
        if env.callStat != RPC_SUCCESS then Err(RpcStatusText(env.callStat)) else Ok(env.reply)
  }
}

=== FILE: wrappers.dfy ===
/** Failure-carrying datatypes shared by every module of the model. */
module Wrappers {

  /** A value that may be absent: a NULL result, a failed lookup. */
  datatype Option<+T> = None | Some(value: T) {
    function GetOr(default: T): T {
      if Some? then value else default
    }
  }

  /** A computed value, or the error that stopped the computation. */
  datatype Result<+T, +E> = Ok(value: T) | Err(error: E)

  /** The verdict of an operation that yields nothing on success. */
  datatype Outcome<+E> = Done | Failed(error: E)
}
